=== FILE: README.md ===
# Voice assistant: client pipeline and server frame loop in Dafny

This project models the real-time core of a small voice assistant. It has two sides.

The browser client is the `VoiceAssistant` class in `static/app.js`. The model covers:

- text submission: trimming, the single-request gate, and the 5-second rate limit with its remaining-seconds notice
- the send button's enabled state
- the recording guards and the voice request: the PCM quantiser, little-endian 16-bit words, and the `END_STREAM` marker
- the response handler: latency, count, gate release and the rounded mean
- the persisted latency ledger
- connection open/close, the reconnect after an unclean close, the keepalive ping and the unload close

The client is a pure state machine. `Client.Handle` takes one event and returns the new client and a list of effects. `Client.Run` folds it over a list of events.

The server is `handle_websocket` and its helpers in `src/main.rs` and `src/groq.rs`. The model covers:

- the per-frame receive loop: the search for the `END_STREAM` marker inside one binary message, the `ping` and `clear_context` commands, the close and error exits, and the end of the stream
- the outcome of a frame: transcribe and answer, `Нет аудио данных`, or the error text
- the conversation history, bounded to ten pairs
- the chat request builders (with and without context) and the choice of result from a response
- the `PORT` default

The module `Conversation` connects the two sides. It feeds the messages the client puts on the socket into the server's loop.

Modules, one per file:

- `Wrappers` (`wrappers.dfy`): `Option` and `Result`
- `Wire` (`wire.dfy`): bytes and the marker
- `Pcm` (`pcm.dfy`): the quantiser and word encoding
- `Stats` (`stats.dfy`): mean, save and load
- `Client` (`client.dfy`)
- `History` (`history.dfy`)
- `Chat` (`chat.dfy`)
- `Frames` (`frames.dfy`)
- `Server` (`server.dfy`)
- `Port` (`port.dfy`)
- `Conversation` (`conversation.dfy`)

The outside world is modelled as inputs:

- Time is the `now` carried by each client event.
- Timers are events: `PingDue` and `ReconnectDue`.
- The browser's audio decoding is a `Decoder` function parameter.
- The local key-value store is a `map`.
- Transcription and the HTTP chat call are function parameters of the server (`Services`, `Transport`).
- A finite list of messages stands for what the server has received so far.

## Behaviour of the code worth knowing

- **Voice requests are not gated.** `processAudio` never sets `isProcessing` and never updates `lastRequestTime`. A voice request therefore does not close the single-request gate and does not restart the rate limit. Only `startRecording`'s own checks apply (`Client.VoiceRequestLeavesGateOpen`).
- **A clean close does not cancel a pending reconnect.** Every unclean close schedules one reconnect timeout, and nothing ever cancels one (`Client.ReconnectsMatchUncleanCloses`).
- **The 500-character limit exists only on the button.** Enter calls `sendTextMessage` directly (`Client.EnterBypassesLengthLimit`).
- **Every non-`pong` message counts as a response.** This includes stray messages, `Нет аудио данных` and the context-cleared notice. Each one is timed against the last `startTime`, counted and persisted.
- **The server ignores `text:` messages.** A text request is therefore never answered, and the client's gate stays closed until some other message arrives (`Conversation.TextRequestGetsNoReply`).
- **The marker is searched inside each binary message.** This includes the audio itself, so a recording whose PCM bytes contain `END_STREAM` is cut short (`Conversation.MarkerInsideAudio`). A marker split across two messages is not recognised (`Frames.SplitMarkerDoesNotEndFrame`).

## Model

| member | source | states |
|---|---|---|
| Client.Trim | static/app.js:256 | the result sits inside the input with only white space around it, starts and ends with a non-space character, and is empty exactly when the input is all white space |
| Client.TrimNoSpace | static/app.js:256 | a string without white space is unchanged by trimming |
| Client.RemainingSeconds | static/app.js:259-265 | the wait notice is the ceiling of the remaining milliseconds over 1000, between 1 and 5 while inside the window |
| Client.SubmitText | static/app.js:255-286 | nothing happens unless the trimmed input is non-empty, the socket is open and no request is outstanding; inside the 5 s window only the wait notice appears and nothing else changes; otherwise the gate closes, the limiter and start time are set, the field is cleared, and the only effects are the user's message shown and one text, `text:` plus the trimmed message, sent |
| Client.OnClick | static/app.js:239-253 | a click does nothing while the button is disabled (empty input, more than 500 characters, or a request outstanding), and is a submission otherwise |
| Client.Receive | static/app.js:101-131 | `pong` changes nothing; any other message appends `now - startTime`, adds one to the count, opens the gate, rewrites the stats key of the store with the new ledger while every other key stays, and shows the rounded mean, the count and the message; nothing else in the client changes |
| Client.StartRecording | static/app.js:482-502 | no effect without a recorder, while recording or while a request is outstanding; inside the 5 s window only the wait notice; otherwise recording starts with an empty chunk list and a 100 ms timeslice, and only then |
| Client.StopRecording | static/app.js:504-512 | a no-op unless recording; otherwise recording ends and the recorder is stopped |
| Client.AddChunk | static/app.js:164-168 | empty chunks are dropped and others appended, so every kept chunk is non-empty; nothing else in the client changes |
| Client.ProcessAudio | static/app.js:514-547 | no chunks: nothing; decode failure: a failure notice; otherwise start time and request count are updated and the new count is shown, then, unless the socket is still connecting (send throws, failure notice), the PCM buffer and then the marker are sent, the buffer decoding to exactly the quantised samples; the gate and the limiter are untouched |
| Client.OnOpen | static/app.js:70-77 | the socket is open and the keepalive runs; nothing else in the client changes |
| Client.OnClose | static/app.js:79-93 | the keepalive stops, an unclean close schedules exactly one reconnect and a clean one none; nothing else changes, so the gate is not released |
| Client.Reconnect | static/app.js:89-91 | a due reconnect opens a new socket to the same URL and consumes one scheduled timeout |
| Client.OnPing | static/app.js:134-140 | `ping` is sent exactly when the keepalive runs and the socket is open; the client is unchanged |
| Client.OnUnload | static/app.js:199-205 | the keepalive stops and the socket is closed with code 1000 and reason `Page unload`; nothing else in the client changes |
| Client.Handle | static/app.js:180-219 | each event reaches its handler as the page wires it: Enter calls the submission directly, a click passes the button's rule first, a socket error changes nothing, the recorder becomes available once microphone access succeeds, a stopped recorder runs the audio processing, the timers run the reconnect and the keepalive ping, and unloading the page runs the unload close |
| Client.Run | static/app.js:180-219 | no events change nothing, and a single event is exactly its handler |
| Client.RunAppend | static/app.js:180-219 | two runs of events one after the other are the run of the joined events, with the effects in order |
| Client.Init | static/app.js:1-21 | the new client keeps the given store, is idle, not rate-limited and connecting to the given URL, with no keepalive, reconnect, recorder, chunks, input or voice requests yet, and a start time of 0 (the source's `null`, which `Date.now() - null` reads as 0); a stored ledger is loaded as it was stored and its count is shown, with its mean when it has latencies; otherwise the ledger is empty and nothing is shown |
| Client.SingleInFlight | static/app.js:255-286 | over any run of events, text requests sent never exceed responses received, plus one if the gate was open at the start |
| Client.HandleGate | static/app.js:257-268 | one event sends at most one text request, and only by closing the gate; only a response reopens it |
| Client.GateHeldWithoutResponse | static/app.js:79-131 | while no response arrives, closes, errors and reconnects never release the gate and no text request goes out |
| Client.LedgerGapPreserved | static/app.js:107-111 | the count minus the number of latencies never changes over any run |
| Client.LedgerStaysPersisted | static/app.js:288-313 | once the store holds the ledger (loaded, or after the first response) it always equals the ledger in memory |
| Client.HandleLeavesLedger | static/app.js:101-131 | no event other than an inbound message touches the ledger or the store |
| Client.ReconnectsMatchUncleanCloses | static/app.js:79-93 | over any run, sockets opened plus reconnects still pending equal those pending at the start plus the unclean closes |
| Client.HandleConnects | static/app.js:86-91 | one event opens a socket exactly when it consumes a scheduled reconnect, and schedules one exactly when it is an unclean close |
| Client.ProcessAudioQuiet | static/app.js:514-547 | the voice path sends no text request, opens no socket and leaves the reconnects, ledger and store alone |
| Client.EnterBypassesLengthLimit | static/app.js:211-219 | a 501-character message is refused by the button but sent in full by Enter |
| Client.VoiceRequestLeavesGateOpen | static/app.js:527-533 | right after a voice request, before any response, a new recording can start and a text request can be sent |
| Client.HelloScenario | static/app.js:255-286 | open, type `hello`, press Enter at 10 000 ms, receive `Hi there` at 10 250 ms: exactly `text:hello` is sent, the reply and a mean of 250 ms with count 1 are shown, and the gate is open again |
| Pcm.Clamp | static/app.js:554 | the sample is limited to [-1, 1] and unchanged inside it |
| Pcm.Truncate | static/app.js:551-555 | a store into an `Int16Array` rounds toward zero |
| Pcm.QuantiseSample | static/app.js:554-555 | every sample maps into the 16-bit range, full scale to 32767 and -32768, zero to zero, with the sign preserved |
| Pcm.QuantiseSampleMonotonic | static/app.js:553-556 | quantisation never reverses the order of two samples |
| Pcm.Quantise | static/app.js:549-559 | one 16-bit value per sample, each the quantised sample at the same index |
| Pcm.WordsRoundTrip | static/app.js:558 | little-endian 16-bit words decode back to the values encoded |
| Pcm.EncodePcm | static/app.js:549-559 | the buffer sent has two bytes per sample and decodes to exactly the quantised samples |
| Pcm.QuantiseAnchors | static/app.js:554-555 | `[1.0, -1.0, 0.0]` becomes `[32767, -32768, 0]` |
| Stats.Round | static/app.js:114 | the displayed value is the nearest integer, halves rounded up |
| Stats.Mean | static/app.js:114 | the displayed mean is within half a millisecond of the exact average: the sum lies within half the count of the mean times the count |
| Stats.MeanBounds | static/app.js:114 | the displayed mean lies between any lower and any upper bound of the latencies |
| Stats.MeanOfTwo | static/app.js:114 | latencies of 100 ms and 300 ms show a mean of 200 ms |
| Stats.Save | static/app.js:307-313 | saving writes the stats key and leaves every other key as it was |
| Stats.Load | static/app.js:288-301 | loading yields nothing exactly when the key is absent; a stored field is used as stored, and a missing one falls back to 0 or to the empty list |
| Stats.LoadAfterSave | static/app.js:288-313 | what was saved is loaded back unchanged |
| Wire.AsciiBytes | static/app.js:533 | an ASCII string encodes to one byte per character, equal to its code |
| Wire.EndStreamIsText | static/app.js:533 | the marker bytes are the encoding of the text `END_STREAM` |
| Port.ParseU16 | src/main.rs:31 | a string is accepted exactly when it has the unsigned syntax (optional `+`, at least one digit) and its digits denote at most 65535, and then its value is the value of those digits |
| Port.PlusSignIgnored | src/main.rs:31 | a leading `+` parses to the same result as the digits alone |
| Port.LeadingZeroIgnored | src/main.rs:31 | leading zeros do not change the value of the digits |
| Port.OutOfRangePortIsDefault | src/main.rs:29-32 | `70000` is refused and the port falls back to 3000 |
| Port.PortFrom | src/main.rs:29-32 | the port is the parsed variable when it parses, 3000 otherwise, and always a 16-bit number |
| Port.ParseDecimal | src/main.rs:31 | every port number written in decimal parses back to itself |
| Port.MissingPortIsDefault | src/main.rs:29-32 | without the variable the port is 3000 |
| History.Remember | src/main.rs:177-182 | the new pair ends the history, which is the newest part of the old history plus that pair, grows by one below ten pairs and keeps its length at ten |
| History.RememberAllLength | src/main.rs:177-182 | after any run of exchanges the history holds all of them while fewer than ten, and exactly ten after that |
| History.RememberAllKeepsNewest | src/main.rs:177-182 | the history is always the most recent pairs of everything exchanged, in order |
| Chat.BuildRequest | src/groq.rs:46-59 | the request without context names the model and holds the short system prompt, then the user's text |
| Chat.RecentHistory | src/groq.rs:76-81 | the context is the last five pairs when there are more, otherwise all of them |
| Chat.Expand | src/groq.rs:83-92 | each pair of context becomes two messages |
| Chat.ExpandPositions | src/groq.rs:83-92 | pair `i` becomes the user message at `2i` and the assistant message at `2i + 1` |
| Chat.CollapseExpand | src/groq.rs:83-92 | the expanded context reads back as exactly the pairs it came from |
| Chat.BuildRequestWithContext | src/groq.rs:64-103 | the request names the model and holds the context prompt, then the expanded recent history, then the user's text |
| Chat.ContextOfRequest | src/groq.rs:76-98 | the messages between the prompt and the question read back as the recent history |
| Chat.SelectResult | src/groq.rs:118-129 | a non-success status is an API error carrying the body; a success yields the first choice's content, and no choice is an error |
| Chat.ChatWithContext | src/groq.rs:105-129 | a transport failure is passed on; otherwise the result is selected from the response to the request with context |
| Chat.ChatWithoutContext | src/groq.rs:46-61 | a transport failure is passed on; otherwise the result is selected from the response to the request without context |
| Frames.FindMarkerFromIsFirst | src/main.rs:93 | the window search finds the first marker position from its start, and finds nothing only when there is none |
| Frames.FindMarker | src/main.rs:93 | a position found is one where the marker's ten bytes start, and nothing is found only when the message has none |
| Frames.FindMarkerIsFirst | src/main.rs:93 | a message contains the marker exactly when the search finds it, at its first occurrence |
| Frames.Receive | src/main.rs:88-127 | the loop stops only after a close, an error, the end of the stream or a binary message with the marker, which is the last message read, or has read every message; the history is kept or cleared |
| Frames.Absorb | src/main.rs:90-116 | a binary message without the marker is appended whole and sets `recording`; `ping` adds one `pong`; `clear_context` empties the history and adds the confirmation; any other text or control frame changes nothing |
| Frames.ReceiveStopsAtFirstEnd | src/main.rs:88-127 | the loop stops at the first message that ends a frame and only there, and is still waiting exactly when none does |
| Frames.ReceiveRecording | src/main.rs:90-91 | `recording` is set exactly when a binary message was read |
| Frames.ReceiveHistory | src/main.rs:107-110 | the history survives the frame unless `clear_context` arrived, which empties it |
| Frames.ReceiveReplies | src/main.rs:100-116 | one `pong` per `ping` and one confirmation per `clear_context`, in arrival order, and no other reply |
| Frames.ReceiveBufferWhole | src/main.rs:90-98 | a frame ended without the marker holds every binary payload whole, in order |
| Frames.ReceiveBufferAtMarker | src/main.rs:93-96 | a frame ended by the marker holds the earlier payloads and the bytes before the marker; the rest of that message is dropped |
| Frames.SplitMarkerDoesNotEndFrame | src/main.rs:93-98 | a marker split across two messages does not end the frame and is kept as audio |
| Server.ProcessAudio | src/main.rs:157-187 | a transcription or chat failure is passed on; success yields the answer and the history with the new pair remembered |
| Server.FinishFrame | src/main.rs:129-153 | no binary message: nothing; binary messages with no bytes: `Нет аудио данных`; otherwise one reply, the answer or `Ошибка: ` plus the error, with the history updated only on success |
| Server.Session | src/main.rs:83-154 | over any messages the history never exceeds ten pairs |
| Server.StreamEndFinishesFrame | src/main.rs:88-153 | when the stream ends inside a frame of unmarked audio, that audio is still processed and answered once, and then the handler spins |
| Server.StreamEndWithoutAudioSpins | src/main.rs:83-154 | when the stream ends with no binary message in the frame, nothing is sent, the history is unchanged and the handler spins |
| Server.CloseDropsUnfinishedFrame | src/main.rs:117-124 | a close or an error ends the handler, dropping the unfinished audio without reply |
| Server.VoiceRequestDeliversAudio | src/main.rs:88-99 | the PCM message followed by the marker message ends the frame with exactly the PCM bytes, provided they do not contain the marker |
| Server.LoneMarkerReportsNoAudio | src/main.rs:150-153 | a marker alone is answered with `Нет аудио данных` and leaves the history alone |
| Server.LeadingMarkerReportsNoAudio | src/main.rs:150-153 | a marker at the start of a frame gives `Нет аудио данных`, then the rest is handled as a fresh frame |
| Server.TextRequestIsIgnored | src/main.rs:100-116 | a `text:` message gets no reply and changes nothing |
| Server.PingIsAnswered | src/main.rs:101-106 | `ping` gets one `pong` and changes nothing else |
| Server.ClearContextEmptiesHistory | src/main.rs:107-115 | `clear_context` empties the history and is confirmed once |
| Conversation.VoiceRoundTrip | static/app.js:527-533 | what the client sends for a voice request ends one server frame holding bytes that decode to exactly the client's quantised samples, unless those bytes contain the marker |
| Conversation.OnTheWire | static/app.js:532-533 | effects that only update the page put nothing on the socket; a text send, binary send or close at the front of the list becomes the first message, as the matching text, binary or close frame, and there are never more messages than effects |
| Conversation.OnTheWireAppend | static/app.js:532-533 | the messages of two effect lists in turn are the messages of the first followed by those of the second |
| Conversation.MarkerSamplesSpellMarker | static/app.js:553-558 | five valid samples quantise to words whose bytes are exactly `END_STREAM` |
| Conversation.MarkerInsideAudio | src/main.rs:93-96 | that recording, sent with its marker, is seen as two empty frames and answered with `Нет аудио данных` twice |
| Conversation.TextRequestGetsNoReply | static/app.js:284-285 | the server gives a text request no reply and keeps its history; the client's gate then stays closed and no further text request goes out while no other message arrives |

## Left out

- Rendering: chat bubbles, status texts, the recording indicator, animations, tabs, the character counter's colours, the card drag-and-drop and its stored order. Only the values the core shows are effects: the wait seconds, the user's message, the reply, the mean and count after a response, the loaded count and mean, and the request count after a voice capture, and the audio-failure notice (`AudioFailed`). Other fixed notices are not (connection established or lost, recording started, voice message sent).
- Browser APIs are parameters: microphone access (the `RecorderReady` event) and `decodeAudioData` (a `Decoder` returning the samples of channel 0, or nothing on failure).
- JSON serialisation of the stored ledger is abstracted: the store holds a record whose fields may be missing, and values of other types are not modelled.
- Client.OnClick: the input's length is its number of characters, where the source counts UTF-16 code units.
- Client.Trim: the white-space set of `String.prototype.trim` is written out by hand as a fixed list of characters.
- Client.ProcessAudio: a send on a closing or closed socket is recorded as an effect, although the browser discards it silently.
- Pcm.QuantiseSample: samples are reals, so NaN, infinities and floating-point rounding of the products are not modelled.
- Stats.Round: computed over exact reals, so the floating-point division before `Math.round` is not modelled.
- Server: send failures are left out; every send succeeds. In the source a failed send of the `pong`, of the context-cleared confirmation, of the answer or of the error text makes the handler return, while a failed send of `Нет аудио данных` is ignored and the loop goes on.
- Server.Session: after the end of the stream the frame in progress is finished once, and every later pass of the outer loop reads nothing. The model stops there with a `Spinning` status instead of looping. If the answer or error text sent after the end of the stream fails, the source returns; the model, where sends always succeed, still reports `Spinning`.
- The WAV file written for transcription, the transcription request, the HTTP chat request, the API key and logging are abstract functions or are left out.
- Routing, static files and the `/api/status` endpoint in `src/main.rs` are not part of this model.
- The `transcribe_audio` form fields (model `whisper-large-v3`, language `ru`) are outside the abstract `transcribe` function.
- Client.Handle: the 3-second reconnect delay and the 30-second keepalive period are not modelled. `ReconnectDue` and `PingDue` are events that carry no time, so any order of timer events is allowed.
- Client.ProcessAudio: decoding is treated as instantaneous. The source captures the chunks when the recorder stops, but reads the clock and the socket only after the asynchronous decode. Two interleavings are therefore not modelled: a new recording that starts while the previous one is still decoding (possible because the voice path never closes the gate), and a socket that closes or reconnects during the decode.
- Client.SubmitText: the start time is the same clock reading as the rate-limit check. The source reads `Date.now()` a second time for `startTime`, after updating the page, so the measured latency can be slightly shorter than the model's.

=== FILE: chat.dfy ===
/** The chat-completion client (src/groq.rs): the message lists sent to the API, with
    and without conversation context, and the choice of result from an already decoded
    HTTP response. HTTP, JSON and the API key are not modelled. */
module Chat {
  import opened Wrappers
  import opened History

  datatype ChatMessage = ChatMessage(role: string, content: string)

  datatype ChatRequest = ChatRequest(model: string, messages: seq<ChatMessage>)

  /** A response as far as `send_chat_request` inspects it: the status code, the body
      text (read on failure) and the decoded `choices` (read on success). */
  datatype ChatResponse = ChatResponse(status: int, body: string, choices: seq<ChatMessage>)

  const Model := "openai/gpt-oss-120b"

  const BriefPrompt := "Ты голосовой ассистент. Отвечай по возможности кратко, не более 4-5 предложений. Отвечай на русском языке."

  const ContextPrompt := "Ты голосовой ассистент. Отвечай кратко, не более 4-5 предложений. Отвечай на русском языке. Помни контекст предыдущих сообщений в разговоре и отвечай с учетом истории."

  /** How many pairs of history are sent with a request. */
  const ContextPairs: nat := 5

  function SystemMessage(prompt: string): ChatMessage {
    ChatMessage("system", prompt)
  }

  function UserMessage(text: string): ChatMessage {
    ChatMessage("user", text)
  }

  function AssistantMessage(text: string): ChatMessage {
    ChatMessage("assistant", text)
  }

  /** `get_chat_response`: a system prompt, then the user's text. */
  function BuildRequest(text: string): (r: ChatRequest)
    ensures r.model == Model
    ensures |r.messages| == 2
    ensures r.messages[0].role == "system" && r.messages[0].content == BriefPrompt
    ensures r.messages[1].role == "user" && r.messages[1].content == text
  {
    ChatRequest(Model, [SystemMessage(BriefPrompt), UserMessage(text)])
  }

  /** The slice of history sent along: the last five pairs when there are more,
      otherwise all of them. */
  function RecentHistory(history: seq<Pair>): (r: seq<Pair>)
    ensures |r| == if |history| > ContextPairs then ContextPairs else |history|
    ensures IsSuffix(r, history)
  {
    if |history| > ContextPairs then history[|history| - ContextPairs..] else history
  }

  /** Each pair as a user message followed by an assistant message. */
  function Expand(pairs: seq<Pair>): (r: seq<ChatMessage>)
    ensures |r| == 2 * |pairs|
  {
    if pairs == [] then []
    else [UserMessage(pairs[0].0), AssistantMessage(pairs[0].1)] + Expand(pairs[1..])
  }

  /** Pair `i` becomes messages `2i` (the user's) and `2i + 1` (the assistant's). */
  lemma {:induction false} ExpandPositions(pairs: seq<Pair>, i: nat)
    requires i < |pairs|
    ensures Expand(pairs)[2 * i] == UserMessage(pairs[i].0)
    ensures Expand(pairs)[2 * i + 1] == AssistantMessage(pairs[i].1)
  {
    if i > 0 {
      ExpandPositions(pairs[1..], i - 1);
      assert Expand(pairs)[2 * i] == Expand(pairs[1..])[2 * (i - 1)];
      assert Expand(pairs)[2 * i + 1] == Expand(pairs[1..])[2 * (i - 1) + 1];
    }
  }

  /** Reads user/assistant alternations back into pairs; `None` when the list does not
      alternate that way. */
  function Collapse(messages: seq<ChatMessage>): Option<seq<Pair>>
    decreases |messages|
  {
    if messages == [] then Some([])
    else if |messages| >= 2 && messages[0].role == "user" && messages[1].role == "assistant" then
      match Collapse(messages[2..])
      case Some(rest) => Some([(messages[0].content, messages[1].content)] + rest)
      case None => None
    else None
  }

  /** The context part of a request loses nothing: it reads back as the pairs sent. */
  lemma {:induction false} CollapseExpand(pairs: seq<Pair>)
    ensures Collapse(Expand(pairs)) == Some(pairs)
  {
    if pairs != [] {
      var e := Expand(pairs);
      assert e[2..] == Expand(pairs[1..]);
      CollapseExpand(pairs[1..]);
      assert Collapse(e) == Some([(pairs[0].0, pairs[0].1)] + pairs[1..]);
      assert [(pairs[0].0, pairs[0].1)] + pairs[1..] == pairs;
    }
  }

  /** `get_chat_response_with_context`: the system prompt, the recent history expanded
      in order, then the user's text. The history itself is only read. */
  function BuildRequestWithContext(text: string, history: seq<Pair>): (r: ChatRequest)
    ensures r.model == Model
    ensures |r.messages| == 2 + 2 * |RecentHistory(history)|
    ensures |r.messages| == 2 + 2 * (if |history| > ContextPairs then ContextPairs else |history|)
    ensures r.messages[0] == SystemMessage(ContextPrompt)
    ensures r.messages[|r.messages| - 1] == UserMessage(text)
    ensures r.messages[1..|r.messages| - 1] == Expand(RecentHistory(history))
  {
    var context := Expand(RecentHistory(history));
    var messages := [SystemMessage(ContextPrompt)] + context + [UserMessage(text)];
    assert messages[1..|messages| - 1] == context;
    ChatRequest(Model, messages)
  }

  /** The history a request carries is exactly the last (up to) five pairs, in order. */
  lemma ContextOfRequest(text: string, history: seq<Pair>)
    ensures var m := BuildRequestWithContext(text, history).messages;
      Collapse(m[1..|m| - 1]) == Some(RecentHistory(history))
  {
    CollapseExpand(RecentHistory(history));
  }

  predicate IsSuccess(status: int) {
    200 <= status < 300
  }

  const NoChoice := "No response from Groq"

  /** `send_chat_request` after the response arrived: an API error carrying the body on
      a non-success status, an error when there is no choice, else the first choice's
      content. */
  function SelectResult(response: ChatResponse): (r: Result<string, string>)
    ensures !IsSuccess(response.status) ==> r == Failure("Groq API error: " + response.body)
    ensures IsSuccess(response.status) && response.choices == [] ==> r == Failure(NoChoice)
    ensures r.Success? <==> IsSuccess(response.status) && |response.choices| > 0
    ensures r.Success? ==> r.value == response.choices[0].content
  {
    if !IsSuccess(response.status) then Failure("Groq API error: " + response.body)
    else if response.choices == [] then Failure(NoChoice)
    else Success(response.choices[0].content)
  }

  /** The transport: sends a request and yields the decoded response or a transport
      (or decoding) error. */
  type Transport = ChatRequest -> Result<ChatResponse, string>

  /** `get_chat_response_with_context` end to end, over an abstract transport. */
  function ChatWithContext(send: Transport, text: string, history: seq<Pair>): (r: Result<string, string>)
    ensures send(BuildRequestWithContext(text, history)).Failure? ==>
      r == Failure(send(BuildRequestWithContext(text, history)).error)
    ensures send(BuildRequestWithContext(text, history)).Success? ==>
      r == SelectResult(send(BuildRequestWithContext(text, history)).value)
  {
    var response :- send(BuildRequestWithContext(text, history));
    SelectResult(response)
  }

  /** `get_chat_response` end to end, over an abstract transport. */
  function ChatWithoutContext(send: Transport, text: string): (r: Result<string, string>)
    ensures send(BuildRequest(text)).Failure? ==> r == Failure(send(BuildRequest(text)).error)
    ensures send(BuildRequest(text)).Success? ==> r == SelectResult(send(BuildRequest(text)).value)
  {
    var response :- send(BuildRequest(text));
    SelectResult(response)
  }
}

=== FILE: client.dfy ===
/** The browser client (`VoiceAssistant` in static/app.js) as a state machine. Every
    browser callback is an event carrying the clock reading `now` where the source reads
    `Date.now()`; timers are events (`PingDue`, `ReconnectDue`); what the client does to
    the outside world — sends on the socket, opens a socket, starts the recorder, shows
    something — is returned as a list of effects. Rendering details are not modelled. */
module Client {
  import opened Wrappers
  import opened Wire
  import Pcm
  import Stats

  /** Minimum spacing of user requests, in milliseconds. */
  const MinInterval: int := 5000

  /** The send button's length limit, in characters. */
  const MaxLength: nat := 500

  /** The recorder's chunk period, in milliseconds. */
  const Timeslice: int := 100

  /** The close code and reason used on page unload. */
  const NormalClosure: int := 1000
  const UnloadReason := "Page unload"

  const TextPrefix := "text:"

  /** `WebSocket.readyState` of the current socket. */
  datatype SocketState = Connecting | Open | Closing | Closed

  datatype Client = Client(
    url: string,
    socket: SocketState,
    pingActive: bool,          // the keepalive interval is installed
    reconnectTimers: nat,      // reconnect timeouts scheduled and not yet fired
    hasRecorder: bool,         // `mediaRecorder` exists
    isRecording: bool,
    isProcessing: bool,
    lastRequestTime: int,
    startTime: int,
    responseTimes: seq<int>,
    totalRequests: int,
    requestCount: int,
    audioChunks: seq<seq<byte>>,
    input: string,             // the text field's value
    store: Stats.Store)        // the browser's key-value store

  datatype Effect =
    | SendText(text: string)
    | SendBinary(data: seq<byte>)
    | CloseSocket(code: int, reason: string)
    | Connect(url: string)
    | WaitNotice(seconds: int)
    | ShowUser(text: string)
    | ShowAssistant(text: string)
    | ShowStats(average: int, total: int)
    | ShowCount(total: int)
    | AudioFailed
    | StartRecorder(timeslice: int)
    | StopRecorder

  datatype Event =
    | Opened
    | SocketClosed(wasClean: bool)
    | SocketError
    | ReconnectDue
    | PingDue
    | Unload
    | Typed(value: string)
    | ClickSend(now: int)
    | PressEnter(now: int)
    | RecorderReady
    | PressRecord(now: int)
    | ReleaseRecord
    | ChunkReady(chunk: seq<byte>)
    | RecorderStopped(now: int)
    | Received(message: string, now: int)

  /** The client after an event, and what it did. */
  datatype Step = Step(client: Client, effects: seq<Effect>)

  /** `decodeAudioData` on the captured chunks, yielding channel 0's samples, or `None`
      when decoding fails. */
  type Decoder = seq<seq<byte>> -> Option<seq<real>>

  // ---------------------------------------------------------------- trimming

  /** The characters `String.prototype.trim` removes: white space and line
      terminators. */
  predicate IsSpace(c: char) {
    || c in {'\U{0009}', '\U{000A}', '\U{000B}', '\U{000C}', '\U{000D}', ' ', '\U{00A0}', '\U{1680}'}
    || ('\U{2000}' <= c <= '\U{200A}')
    || c in {'\U{2028}', '\U{2029}', '\U{202F}', '\U{205F}', '\U{3000}', '\U{FEFF}'}
  }

  /** Every character of `s` in `[lo, hi)` is white space. */
  predicate SpacesBetween(s: string, lo: int, hi: int) {
    forall i :: 0 <= lo <= i < hi <= |s| ==> IsSpace(s[i])
  }

  predicate AllSpace(s: string) {
    SpacesBetween(s, 0, |s|)
  }

  /** The first position at or after `i` that is not white space (or the end). */
  function SkipForward(s: string, i: nat): (j: nat)
    requires i <= |s|
    ensures i <= j <= |s| && SpacesBetween(s, i, j)
    ensures j < |s| ==> !IsSpace(s[j])
    decreases |s| - i
  {
    if i == |s| || !IsSpace(s[i]) then i else SkipForward(s, i + 1)
  }

  /** The position just after the last character before `hi` that is not white space
      (or `lo`). */
  function SkipBackward(s: string, lo: nat, hi: nat): (j: nat)
    requires lo <= hi <= |s|
    ensures lo <= j <= hi && SpacesBetween(s, j, hi)
    ensures lo < j ==> !IsSpace(s[j - 1])
    decreases hi - lo
  {
    if hi == lo || !IsSpace(s[hi - 1]) then hi else SkipBackward(s, lo, hi - 1)
  }

  /** `t` sits at position `k` of `s` with only white space around it. */
  predicate Framed(s: string, t: string, k: int) {
    0 <= k && k + |t| <= |s| && s[k..k + |t|] == t && SpacesBetween(s, 0, k) && SpacesBetween(s, k + |t|, |s|)
  }

  /** `String.prototype.trim`. */
  function Trim(s: string): (r: string)
    ensures exists k :: Framed(s, r, k)
    ensures r != [] ==> !IsSpace(r[0]) && !IsSpace(r[|r| - 1])
    ensures r == [] <==> AllSpace(s)
  {
    var a := SkipForward(s, 0);
    var z := SkipBackward(s, a, |s|);
    assert Framed(s, s[a..z], a);
    assert a < |s| ==> a < z;
    s[a..z]
  }

  lemma TrimNoSpace(s: string)
    requires forall i :: 0 <= i < |s| ==> !IsSpace(s[i])
    ensures Trim(s) == s
  {
    var k :| Framed(s, Trim(s), k);
  }

  // ---------------------------------------------------------------- text input

  /** `Math.ceil((5000 - elapsed) / 1000)`: the whole seconds still to wait. */
  function RemainingSeconds(elapsed: int): (r: int)
    ensures (r - 1) * 1000 < MinInterval - elapsed <= r * 1000
    ensures 0 <= elapsed < MinInterval ==> 1 <= r <= 5
  {
    (MinInterval - elapsed + 999) / 1000
  }

  /** The send button is enabled (`updateCharCounter`). */
  predicate SendEnabled(input: string, isProcessing: bool) {
    !(|input| == 0 || |input| > MaxLength || isProcessing)
  }

  /** The gate of `sendTextMessage` before the time check: a non-blank message, an open
      socket, no request outstanding. */
  predicate TextGateOpen(c: Client) {
    Trim(c.input) != [] && c.socket == Open && !c.isProcessing
  }

  predicate TooSoon(c: Client, now: int) {
    now - c.lastRequestTime < MinInterval
  }

  /** The texts the client sent on the socket, in order. */
  function TextsSent(effects: seq<Effect>): seq<string> {
    if effects == [] then []
    else (if effects[0].SendText? then [effects[0].text] else []) + TextsSent(effects[1..])
  }

  /** `sendTextMessage`. */
  function SubmitText(c: Client, now: int): (r: Step)
    ensures !TextGateOpen(c) ==> r == Step(c, [])
    ensures TextGateOpen(c) && TooSoon(c, now) ==>
      r == Step(c, [WaitNotice(RemainingSeconds(now - c.lastRequestTime))])
    ensures TextGateOpen(c) && !TooSoon(c, now) ==>
      && r.client == c.(isProcessing := true, lastRequestTime := now, startTime := now, input := [])
      && TextsSent(r.effects) == [TextPrefix + Trim(c.input)]
      && ShowUser(Trim(c.input)) in r.effects
      && r.effects == [ShowUser(Trim(c.input)), SendText(TextPrefix + Trim(c.input))]
  {
    var message := Trim(c.input);
    if message == [] || c.socket != Open || c.isProcessing then Step(c, [])
    else if now - c.lastRequestTime < MinInterval then
      Step(c, [WaitNotice(RemainingSeconds(now - c.lastRequestTime))])
    else
      var effects := [ShowUser(message), SendText(TextPrefix + message)];
      assert effects[1..][1..] == [];
      assert TextsSent(effects[1..]) == [TextPrefix + message];
      Step(c.(isProcessing := true, lastRequestTime := now, startTime := now, input := []), effects)
  }

  /** A click reaches `sendTextMessage` only while the button is enabled. */
  function OnClick(c: Client, now: int): (r: Step)
    ensures !SendEnabled(c.input, c.isProcessing) ==> r == Step(c, [])
    ensures SendEnabled(c.input, c.isProcessing) ==> r == SubmitText(c, now)
  {
    if SendEnabled(c.input, c.isProcessing) then SubmitText(c, now) else Step(c, [])
  }

  // ---------------------------------------------------------------- responses

  /** The ledger is stored under the stats key exactly as the client holds it. */
  predicate Persisted(c: Client) {
    Stats.Load(c.store) == Some(Stats.Ledger(c.totalRequests, c.responseTimes))
  }

  /** `onmessage`: `pong` is dropped; any other message counts as the response to the
      outstanding request, whatever it is. */
  function Receive(c: Client, data: string, now: int): (r: Step)
    ensures data == "pong" ==> r == Step(c, [])
    ensures data != "pong" ==>
      && r.client.responseTimes == c.responseTimes + [now - c.startTime]
      && r.client.totalRequests == c.totalRequests + 1
      && !r.client.isProcessing
      && Persisted(r.client)
      && r.effects == [ShowStats(Stats.Mean(r.client.responseTimes), r.client.totalRequests), ShowAssistant(data)]
    ensures r.client.totalRequests - |r.client.responseTimes| == c.totalRequests - |c.responseTimes|
    ensures r.client == c.(responseTimes := r.client.responseTimes, totalRequests := r.client.totalRequests,
                           isProcessing := r.client.isProcessing, store := r.client.store)
    ensures data != "pong" ==>
      r.client.store == Stats.Save(c.store, Stats.Ledger(r.client.totalRequests, r.client.responseTimes))
  {
    if data == "pong" then Step(c, [])
    else
      var times := c.responseTimes + [now - c.startTime];
      var total := c.totalRequests + 1;
      var ledger := Stats.Ledger(total, times);
      Stats.LoadAfterSave(c.store, ledger);
      var c' := c.(responseTimes := times, totalRequests := total, isProcessing := false,
                   store := Stats.Save(c.store, ledger));
      Step(c', [ShowStats(Stats.Mean(times), total), ShowAssistant(data)])
  }

  // ---------------------------------------------------------------- recording

  /** `startRecording`. */
  function StartRecording(c: Client, now: int): (r: Step)
    ensures !c.hasRecorder || c.isRecording || c.isProcessing ==> r == Step(c, [])
    ensures c.hasRecorder && !c.isRecording && !c.isProcessing && TooSoon(c, now) ==>
      r == Step(c, [WaitNotice(RemainingSeconds(now - c.lastRequestTime))])
    ensures r.client.isRecording != c.isRecording ==>
      && c.hasRecorder && !c.isProcessing && !TooSoon(c, now)
      && r.client == c.(isRecording := true, audioChunks := [])
      && r.effects == [StartRecorder(Timeslice)]
    ensures c.hasRecorder && !c.isRecording && !c.isProcessing && !TooSoon(c, now) ==> r.client.isRecording
  {
    if !c.hasRecorder || c.isRecording || c.isProcessing then Step(c, [])
    else if now - c.lastRequestTime < MinInterval then
      Step(c, [WaitNotice(RemainingSeconds(now - c.lastRequestTime))])
    else
      Step(c.(isRecording := true, audioChunks := []), [StartRecorder(Timeslice)])
  }

  /** `stopRecording` (button released or left). */
  function StopRecording(c: Client): (r: Step)
    ensures !c.isRecording ==> r == Step(c, [])
    ensures c.isRecording ==> r == Step(c.(isRecording := false), [StopRecorder])
  {
    if !c.isRecording then Step(c, []) else Step(c.(isRecording := false), [StopRecorder])
  }

  /** `ondataavailable`: only non-empty chunks are kept. */
  function AddChunk(c: Client, data: seq<byte>): (r: Client)
    ensures |data| == 0 ==> r == c
    ensures |data| > 0 ==> r.audioChunks == c.audioChunks + [data]
    ensures r == c.(audioChunks := r.audioChunks)
    ensures (forall i :: 0 <= i < |c.audioChunks| ==> |c.audioChunks[i]| > 0) ==>
      forall i :: 0 <= i < |r.audioChunks| ==> |r.audioChunks[i]| > 0
  {
    if |data| > 0 then c.(audioChunks := c.audioChunks + [data]) else c
  }

  /** `processAudio` after the recorder stopped: nothing when no chunk was captured; a
      failure notice when decoding fails; otherwise the PCM buffer and then the marker
      are sent. A socket still connecting makes the first send throw, which the same
      handler reports as a failure after the counters were already updated. The voice
      path neither sets nor tests `isProcessing` and `lastRequestTime`. The new request
      count is shown before the first send. */
  function ProcessAudio(c: Client, now: int, decode: Decoder): (r: Step)
    ensures c.audioChunks == [] ==> r == Step(c, [])
    ensures c.audioChunks != [] && decode(c.audioChunks).None? ==> r == Step(c, [AudioFailed])
    ensures c.audioChunks != [] && decode(c.audioChunks).Some? ==>
      r.client == c.(startTime := now, requestCount := c.requestCount + 1)
    ensures c.audioChunks != [] && decode(c.audioChunks).Some? && c.socket == Connecting ==>
      r.effects == [ShowCount(c.requestCount + 1), AudioFailed]
    ensures c.audioChunks != [] && decode(c.audioChunks).Some? && c.socket != Connecting ==>
      var samples := decode(c.audioChunks).value;
      && |r.effects| == 3 && r.effects[0] == ShowCount(c.requestCount + 1)
      && r.effects[1].SendBinary? && r.effects[2] == SendBinary(EndStream)
      && |r.effects[1].data| == 2 * |samples|
      && Pcm.DecodeWords(r.effects[1].data) == Pcm.Quantise(samples)
    ensures r.client.isProcessing == c.isProcessing && r.client.lastRequestTime == c.lastRequestTime
  {
    if c.audioChunks == [] then Step(c, [])
    else match decode(c.audioChunks)
      case None => Step(c, [AudioFailed])
      case Some(samples) =>
        var c' := c.(startTime := now, requestCount := c.requestCount + 1);
        var shown := ShowCount(c'.requestCount);
        if c.socket == Connecting then Step(c', [shown, AudioFailed])
        else Step(c', [shown, SendBinary(Pcm.EncodePcm(samples)), SendBinary(EndStream)])
  }

  // ---------------------------------------------------------------- connection

  /** `onopen`: the keepalive starts. */
  function OnOpen(c: Client): (r: Client)
    ensures r.socket == Open && r.pingActive
    ensures r == c.(socket := r.socket, pingActive := r.pingActive)
  {
    c.(socket := Open, pingActive := true)
  }

  /** `onclose`: the keepalive stops; an unclean close schedules one reconnect. The
      outstanding request, if any, is not released. */
  function OnClose(c: Client, wasClean: bool): (r: Client)
    ensures r.socket == Closed && !r.pingActive
    ensures r.reconnectTimers == if wasClean then c.reconnectTimers else c.reconnectTimers + 1
    ensures r.isProcessing == c.isProcessing
    ensures r == c.(socket := r.socket, pingActive := r.pingActive, reconnectTimers := r.reconnectTimers)
  {
    c.(socket := Closed, pingActive := false,
       reconnectTimers := if wasClean then c.reconnectTimers else c.reconnectTimers + 1)
  }

  /** A reconnect timeout fires: a new socket to the same URL. */
  function Reconnect(c: Client): (r: Step)
    ensures c.reconnectTimers == 0 ==> r == Step(c, [])
    ensures c.reconnectTimers > 0 ==>
      && r.effects == [Connect(c.url)]
      && r.client == c.(socket := Connecting, reconnectTimers := c.reconnectTimers - 1)
  {
    if c.reconnectTimers == 0 then Step(c, [])
    else Step(c.(socket := Connecting, reconnectTimers := c.reconnectTimers - 1), [Connect(c.url)])
  }

  /** The keepalive interval fires: `ping` is sent only while the socket is open. */
  function OnPing(c: Client): (r: Step)
    ensures r.client == c
    ensures r.effects == if c.pingActive && c.socket == Open then [SendText("ping")] else []
  {
    if c.pingActive && c.socket == Open then Step(c, [SendText("ping")]) else Step(c, [])
  }

  /** `beforeunload`: the keepalive stops and the socket is closed with code 1000. */
  function OnUnload(c: Client): (r: Step)
    ensures !r.client.pingActive
    ensures r.effects == [CloseSocket(NormalClosure, UnloadReason)]
    ensures r.client.socket in {Closing, Closed}
    ensures r.client == c.(socket := r.client.socket, pingActive := false)
  {
    var socket := if c.socket == Closed then Closed else Closing;
    Step(c.(pingActive := false, socket := socket), [CloseSocket(NormalClosure, UnloadReason)])
  }

  // ---------------------------------------------------------------- the whole client

  /** The constructor: load the ledger from the store, then open the socket. A loaded
      ledger shows its count, and its mean when there are latencies. */
  function Init(url: string, store: Stats.Store): (r: Step)
    ensures r.client.url == url && r.client.socket == Connecting && Connect(url) in r.effects
    ensures !r.client.isProcessing && !r.client.isRecording && r.client.lastRequestTime == 0
    ensures Stats.Load(store).Some? ==> Persisted(r.client)
    ensures Stats.Load(store).None? ==> r.client.totalRequests == 0 && r.client.responseTimes == []
    ensures r.client.store == store
    ensures r.client.startTime == 0
    ensures !r.client.pingActive && r.client.reconnectTimers == 0 && !r.client.hasRecorder
    ensures r.client.audioChunks == [] && r.client.input == [] && r.client.requestCount == 0
    ensures Stats.Load(store).None? ==> r.effects == [Connect(url)]
    ensures Stats.Load(store).Some? ==>
      var ledger := Stats.Load(store).value;
      r.effects == [if |ledger.responseTimes| > 0
                    then ShowStats(Stats.Mean(ledger.responseTimes), ledger.totalRequests)
                    else ShowCount(ledger.totalRequests),
                    Connect(url)]
  {
    var c := Client(url, Connecting, false, 0, false, false, false, 0, 0, [], 0, 0, [], [], store);
    match Stats.Load(store)
    case None => Step(c, [Connect(url)])
    case Some(ledger) =>
      var shown := if |ledger.responseTimes| > 0
        then ShowStats(Stats.Mean(ledger.responseTimes), ledger.totalRequests)
        else ShowCount(ledger.totalRequests);
      Step(c.(totalRequests := ledger.totalRequests, responseTimes := ledger.responseTimes),
           [shown, Connect(url)])
  }

  /** One event, routed as the page wires it: Enter calls `sendTextMessage` directly
      while a click passes the button's rule; a socket error only changes the status
      shown; the recorder becomes available when microphone access succeeds; a stopped
      recorder triggers `processAudio`. */
  function Handle(c: Client, e: Event, decode: Decoder): (r: Step)
    ensures e.PressEnter? ==> r == SubmitText(c, e.now)
    ensures e.ClickSend? ==> r == OnClick(c, e.now)
    ensures e.Received? ==> r == Receive(c, e.message, e.now)
    ensures e.RecorderStopped? ==> r == ProcessAudio(c, e.now, decode)
    ensures e.PressRecord? ==> r == StartRecording(c, e.now)
    ensures e.ReleaseRecord? ==> r == StopRecording(c)
    ensures e.SocketError? ==> r == Step(c, [])
    ensures e.RecorderReady? ==> r == Step(c.(hasRecorder := true), [])
    ensures e.Typed? ==> r == Step(c.(input := e.value), [])
    ensures e.ChunkReady? ==> r == Step(AddChunk(c, e.chunk), [])
    ensures e.SocketClosed? ==> r == Step(OnClose(c, e.wasClean), [])
    ensures e.Opened? ==> r == Step(OnOpen(c), [])
    ensures e.ReconnectDue? ==> r == Reconnect(c)
    ensures e.PingDue? ==> r == OnPing(c)
    ensures e.Unload? ==> r == OnUnload(c)
  {
    match e
    case Opened => Step(OnOpen(c), [])
    case SocketClosed(wasClean) => Step(OnClose(c, wasClean), [])
    case SocketError => Step(c, [])
    case ReconnectDue => Reconnect(c)
    case PingDue => OnPing(c)
    case Unload => OnUnload(c)
    case Typed(value) => Step(c.(input := value), [])
    case ClickSend(now) => OnClick(c, now)
    case PressEnter(now) => SubmitText(c, now)
    case RecorderReady => Step(c.(hasRecorder := true), [])
    case PressRecord(now) => StartRecording(c, now)
    case ReleaseRecord => StopRecording(c)
    case ChunkReady(chunk) => Step(AddChunk(c, chunk), [])
    case RecorderStopped(now) => ProcessAudio(c, now, decode)
    case Received(data, now) => Receive(c, data, now)
  }

  /** A sequence of events, effects concatenated in order. */
  function Run(c: Client, events: seq<Event>, decode: Decoder): (r: Step)
    decreases |events|
    ensures events == [] ==> r == Step(c, [])
    ensures |events| == 1 ==> r == Handle(c, events[0], decode)
  {
    if events == [] then Step(c, [])
    else
      var first := Handle(c, events[0], decode);
      var rest := Run(first.client, events[1..], decode);
      Step(rest.client, first.effects + rest.effects)
  }

  /** Running two lists of events one after the other is running them joined: the
      loop keeps no state besides the client. */
  lemma {:induction false} RunAppend(c: Client, a: seq<Event>, b: seq<Event>, decode: Decoder)
    ensures var first := Run(c, a, decode);
      var rest := Run(first.client, b, decode);
      Run(c, a + b, decode) == Step(rest.client, first.effects + rest.effects)
    decreases |a|
  {
    if a == [] {
      assert a + b == b;
    } else {
      var s := Handle(c, a[0], decode);
      assert (a + b)[0] == a[0] && (a + b)[1..] == a[1..] + b;
      RunAppend(s.client, a[1..], b, decode);
      var mid := Run(s.client, a[1..], decode);
      var rest := Run(mid.client, b, decode);
      assert s.effects + (mid.effects + rest.effects) == (s.effects + mid.effects) + rest.effects;
    }
  }

  // ---------------------------------------------------------------- properties of runs

  predicate IsTextRequest(e: Effect) {
    e.SendText? && |e.text| >= |TextPrefix| && e.text[..|TextPrefix|] == TextPrefix
  }

  function TextRequests(effects: seq<Effect>): nat {
    if effects == [] then 0
    else (if IsTextRequest(effects[0]) then 1 else 0) + TextRequests(effects[1..])
  }

  /** Inbound messages other than `pong`. */
  function Responses(events: seq<Event>): nat {
    if events == [] then 0
    else (if events[0].Received? && events[0].message != "pong" then 1 else 0) + Responses(events[1..])
  }

  function Connects(effects: seq<Effect>): nat {
    if effects == [] then 0 else (if effects[0].Connect? then 1 else 0) + Connects(effects[1..])
  }

  function UncleanCloses(events: seq<Event>): nat {
    if events == [] then 0
    else (if events[0] == SocketClosed(false) then 1 else 0) + UncleanCloses(events[1..])
  }

  /** One if a text request may be dispatched as far as the gate is concerned. */
  function Free(c: Client): nat {
    if c.isProcessing then 0 else 1
  }

  lemma {:induction false} TextRequestsAppend(a: seq<Effect>, b: seq<Effect>)
    ensures TextRequests(a + b) == TextRequests(a) + TextRequests(b)
  {
    if a != [] {
      assert (a + b)[0] == a[0];
      assert (a + b)[1..] == a[1..] + b;
      TextRequestsAppend(a[1..], b);
    } else {
      assert a + b == b;
    }
  }

  lemma {:induction false} ConnectsAppend(a: seq<Effect>, b: seq<Effect>)
    ensures Connects(a + b) == Connects(a) + Connects(b)
  {
    if a != [] {
      assert (a + b)[0] == a[0];
      assert (a + b)[1..] == a[1..] + b;
      ConnectsAppend(a[1..], b);
    } else {
      assert a + b == b;
    }
  }

  /** The counts over one effect. */
  lemma CountsOfOne(x: Effect)
    ensures TextRequests([x]) == if IsTextRequest(x) then 1 else 0
    ensures Connects([x]) == if x.Connect? then 1 else 0
  {
    assert [x][1..] == [];
  }

  /** The counts over two effects. */
  lemma CountsOfTwo(x: Effect, y: Effect)
    ensures TextRequests([x, y]) == (if IsTextRequest(x) then 1 else 0) + (if IsTextRequest(y) then 1 else 0)
    ensures Connects([x, y]) == (if x.Connect? then 1 else 0) + (if y.Connect? then 1 else 0)
  {
    assert [x, y][1..] == [y];
    CountsOfOne(y);
  }

  /** The voice path sends binary frames only. */
  lemma ProcessAudioQuiet(c: Client, now: int, decode: Decoder)
    ensures var s := ProcessAudio(c, now, decode);
      TextRequests(s.effects) == 0 && Connects(s.effects) == 0
    ensures var r := ProcessAudio(c, now, decode).client;
      && r.reconnectTimers == c.reconnectTimers
      && r.totalRequests == c.totalRequests && r.responseTimes == c.responseTimes && r.store == c.store
  {
    var s := ProcessAudio(c, now, decode);
    if c.audioChunks != [] {
      if decode(c.audioChunks).None? {
        CountsOfOne(AudioFailed);
      } else if c.socket == Connecting {
        CountsOfTwo(s.effects[0], AudioFailed);
      } else {
        CountsOfTwo(s.effects[1], s.effects[2]);
        assert s.effects[1..] == [s.effects[1], s.effects[2]];
      }
    }
  }

  /** A response only updates the page. */
  lemma ReceiveQuiet(c: Client, data: string, now: int)
    ensures var s := Receive(c, data, now);
      TextRequests(s.effects) == 0 && Connects(s.effects) == 0 && s.client.reconnectTimers == c.reconnectTimers
  {
    var s := Receive(c, data, now);
    if data != "pong" {
      CountsOfTwo(s.effects[0], s.effects[1]);
    }
  }

  /** One event dispatches at most one text request, and only by closing the gate; only
      a response reopens it. */
  lemma HandleGate(c: Client, e: Event, decode: Decoder)
    ensures var s := Handle(c, e, decode);
      TextRequests(s.effects) + Free(s.client) <= (if e.Received? && e.message != "pong" then 1 else 0) + Free(c)
  {
    match e
    case ReconnectDue =>
      CountsOfOne(Connect(c.url));
    case PingDue =>
      CountsOfOne(SendText("ping"));
      assert !IsTextRequest(SendText("ping"));
    case Unload =>
      CountsOfOne(CloseSocket(NormalClosure, UnloadReason));
    case ClickSend(now) =>
      SubmitTextGate(c, now);
    case PressEnter(now) =>
      SubmitTextGate(c, now);
    case PressRecord(now) =>
      CountsOfOne(WaitNotice(RemainingSeconds(now - c.lastRequestTime)));
      CountsOfOne(StartRecorder(Timeslice));
    case ReleaseRecord =>
      CountsOfOne(StopRecorder);
    case RecorderStopped(now) =>
      ProcessAudioQuiet(c, now, decode);
    case Received(data, now) =>
      ReceiveQuiet(c, data, now);
    case _ =>
  }

  lemma SubmitTextGate(c: Client, now: int)
    ensures var s := SubmitText(c, now); TextRequests(s.effects) + Free(s.client) <= Free(c)
  {
    var s := SubmitText(c, now);
    var m := Trim(c.input);
    if TextGateOpen(c) && !TooSoon(c, now) {
      assert s.effects == [ShowUser(m), SendText(TextPrefix + m)];
      assert (TextPrefix + m)[..|TextPrefix|] == TextPrefix;
      assert s.effects[1..][1..] == [];
      assert TextRequests(s.effects[1..]) == 1;
    } else if TextGateOpen(c) {
      assert s.effects[1..] == [];
    }
  }

  /** Single request in flight: over any run, the text requests dispatched never exceed
      the responses received, plus one if the gate was open at the start. */
  lemma {:induction false} SingleInFlight(c: Client, events: seq<Event>, decode: Decoder)
    ensures var r := Run(c, events, decode);
      TextRequests(r.effects) + Free(r.client) <= Responses(events) + Free(c)
    decreases |events|
  {
    if events != [] {
      var first := Handle(c, events[0], decode);
      HandleGate(c, events[0], decode);
      SingleInFlight(first.client, events[1..], decode);
      TextRequestsAppend(first.effects, Run(first.client, events[1..], decode).effects);
    }
  }

  /** Without a response the gate stays closed: no close, error or reconnect releases
      it, and no text request goes out. */
  lemma GateHeldWithoutResponse(c: Client, events: seq<Event>, decode: Decoder)
    requires c.isProcessing && Responses(events) == 0
    ensures Run(c, events, decode).client.isProcessing
    ensures TextRequests(Run(c, events, decode).effects) == 0
  {
    SingleInFlight(c, events, decode);
  }

  /** Each response adds one latency and one to the count, so their difference never
      changes. */
  lemma {:induction false} LedgerGapPreserved(c: Client, events: seq<Event>, decode: Decoder)
    ensures var r := Run(c, events, decode).client;
      r.totalRequests - |r.responseTimes| == c.totalRequests - |c.responseTimes|
    decreases |events|
  {
    if events != [] {
      var first := Handle(c, events[0], decode).client;
      HandleKeepsLedgerGap(c, events[0], decode);
      LedgerGapPreserved(first, events[1..], decode);
      assert Run(c, events, decode).client == Run(first, events[1..], decode).client;
    }
  }

  lemma HandleKeepsLedgerGap(c: Client, e: Event, decode: Decoder)
    ensures var r := Handle(c, e, decode).client;
      r.totalRequests - |r.responseTimes| == c.totalRequests - |c.responseTimes|
  {
    match e
    case Received(data, now) =>
    case _ =>
      HandleLeavesLedger(c, e, decode);
  }

  /** Only a response touches the ledger and the store. */
  lemma HandleLeavesLedger(c: Client, e: Event, decode: Decoder)
    requires !e.Received?
    ensures var r := Handle(c, e, decode).client;
      r.totalRequests == c.totalRequests && r.responseTimes == c.responseTimes && r.store == c.store
  {
    match e
    case ClickSend(now) => SubmitTextLeavesLedger(c, now);
    case PressEnter(now) => SubmitTextLeavesLedger(c, now);
    case RecorderStopped(now) => ProcessAudioQuiet(c, now, decode);
    case _ =>
  }

  lemma SubmitTextLeavesLedger(c: Client, now: int)
    ensures var r := SubmitText(c, now).client;
      r.totalRequests == c.totalRequests && r.responseTimes == c.responseTimes && r.store == c.store
  {
  }

  /** The stored ledger, once written (or loaded), always matches the one in memory. */
  lemma {:induction false} LedgerStaysPersisted(c: Client, events: seq<Event>, decode: Decoder)
    requires Persisted(c) || Responses(events) > 0
    ensures Persisted(Run(c, events, decode).client)
    decreases |events|
  {
    if events != [] {
      var first := Handle(c, events[0], decode).client;
      HandlePersists(c, events[0], decode);
      LedgerStaysPersisted(first, events[1..], decode);
      assert Run(c, events, decode).client == Run(first, events[1..], decode).client;
    }
  }

  lemma HandlePersists(c: Client, e: Event, decode: Decoder)
    ensures Persisted(c) || (e.Received? && e.message != "pong") ==> Persisted(Handle(c, e, decode).client)
  {
    match e
    case Received(data, now) =>
    case _ =>
      HandleLeavesLedger(c, e, decode);
  }

  /** Reconnects: every socket opened by the client was scheduled by an unclean close
      (or already pending), and every scheduled reconnect that has not fired is still
      pending. */
  lemma {:induction false} ReconnectsMatchUncleanCloses(c: Client, events: seq<Event>, decode: Decoder)
    ensures var r := Run(c, events, decode);
      Connects(r.effects) + r.client.reconnectTimers == c.reconnectTimers + UncleanCloses(events)
    decreases |events|
  {
    if events != [] {
      var first := Handle(c, events[0], decode);
      var rest := Run(first.client, events[1..], decode);
      HandleConnects(c, events[0], decode);
      ReconnectsMatchUncleanCloses(first.client, events[1..], decode);
      ConnectsAppend(first.effects, rest.effects);
      assert Run(c, events, decode) == Step(rest.client, first.effects + rest.effects);
    }
  }

  /** One event opens a socket exactly when it consumes a scheduled reconnect, and
      schedules one exactly when it is an unclean close. */
  lemma HandleConnects(c: Client, e: Event, decode: Decoder)
    ensures var s := Handle(c, e, decode);
      Connects(s.effects) + s.client.reconnectTimers
        == c.reconnectTimers + (if e == SocketClosed(false) then 1 else 0)
  {
    match e
    case ReconnectDue =>
      CountsOfOne(Connect(c.url));
    case PingDue =>
      CountsOfOne(SendText("ping"));
    case Unload =>
      CountsOfOne(CloseSocket(NormalClosure, UnloadReason));
    case ClickSend(now) =>
      SubmitTextConnects(c, now);
    case PressEnter(now) =>
      SubmitTextConnects(c, now);
    case PressRecord(now) =>
      CountsOfOne(WaitNotice(RemainingSeconds(now - c.lastRequestTime)));
      CountsOfOne(StartRecorder(Timeslice));
    case ReleaseRecord =>
      CountsOfOne(StopRecorder);
    case RecorderStopped(now) =>
      ProcessAudioQuiet(c, now, decode);
    case Received(data, now) =>
      ReceiveQuiet(c, data, now);
    case _ =>
  }

  lemma SubmitTextConnects(c: Client, now: int)
    ensures var s := SubmitText(c, now);
      Connects(s.effects) == 0 && s.client.reconnectTimers == c.reconnectTimers
  {
    var s := SubmitText(c, now);
    if TextGateOpen(c) && !TooSoon(c, now) {
      assert s.effects[1..][1..] == [];
      assert Connects(s.effects[1..]) == 0;
    } else if TextGateOpen(c) {
      assert s.effects[1..] == [];
    }
  }

  /** The voice path neither closes the gate nor restarts the rate limit: right after a
      voice request went out, before any response, another recording may start and a
      text request may be sent. */
  lemma VoiceRequestLeavesGateOpen(c: Client, now: int, later: int, decode: Decoder)
    requires c.audioChunks != [] && decode(c.audioChunks).Some? && c.socket == Open
    requires c.hasRecorder && !c.isRecording && !c.isProcessing && !TooSoon(c, later)
    ensures var s := ProcessAudio(c, now, decode);
      && s.effects[1].SendBinary?
      && StartRecording(s.client, later).client.isRecording
      && (Trim(c.input) != [] ==> TextsSent(SubmitText(s.client, later).effects) == [TextPrefix + Trim(c.input)])
  {
  }

  /** The length limit is enforced only by the button: Enter sends a 501-character
      message that the button would refuse. */
  lemma EnterBypassesLengthLimit(c: Client, now: int)
    requires c.socket == Open && !c.isProcessing && !TooSoon(c, now)
    ensures var long := seq(MaxLength + 1, _ => 'a');
      var c' := c.(input := long);
      && !SendEnabled(c'.input, c'.isProcessing)
      && OnClick(c', now) == Step(c', [])
      && TextsSent(SubmitText(c', now).effects) == [TextPrefix + long]
  {
    var long := seq(MaxLength + 1, _ => 'a');
    TrimNoSpace(long);
  }

  /** The end-to-end text scenario: the page opens, the socket opens, "hello" is sent
      with Enter, "Hi there" comes back 250 ms later. */
  lemma HelloScenario(url: string, decode: Decoder)
    ensures var init := Init(url, map[]);
      var r := Run(init.client, [Opened, Typed("hello"), PressEnter(10000), Received("Hi there", 10250)], decode);
      && TextsSent(r.effects) == ["text:hello"]
      && ShowAssistant("Hi there") in r.effects
      && ShowStats(250, 1) in r.effects
      && r.client.totalRequests == 1 && r.client.responseTimes == [250]
      && !r.client.isProcessing
  {
    var c0 := Init(url, map[]).client;
    var c1 := OnOpen(c0);
    assert c0.startTime == 0;
    HelloExchange(c1, decode);
    var rest := [Typed("hello"), PressEnter(10000), Received("Hi there", 10250)];
    RunKnownStep(c0, Opened, rest, decode, Step(c1, []));
    assert [Opened] + rest == [Opened, Typed("hello"), PressEnter(10000), Received("Hi there", 10250)];
    var r := Run(c1, rest, decode);
    assert [] + r.effects == r.effects;
    assert Run(c0, [Opened] + rest, decode) == r;
  }

  /** The scenario once the socket is open. */
  lemma HelloExchange(c: Client, decode: Decoder)
    requires c.socket == Open && !c.isProcessing && c.lastRequestTime == 0 && c.startTime == 0
    requires c.responseTimes == [] && c.totalRequests == 0
    ensures var r := Run(c, [Typed("hello"), PressEnter(10000), Received("Hi there", 10250)], decode);
      && TextsSent(r.effects) == ["text:hello"]
      && ShowAssistant("Hi there") in r.effects
      && ShowStats(250, 1) in r.effects
      && r.client.totalRequests == 1 && r.client.responseTimes == [250]
      && !r.client.isProcessing
  {
    var sent := [ShowUser("hello"), SendText("text:hello")];
    var shown := [ShowStats(250, 1), ShowAssistant("Hi there")];
    HelloRun(c, decode);
    HelloTexts();
    TextsSentAppend(sent, shown);
    assert (sent + shown)[2] == ShowStats(250, 1) && (sent + shown)[3] == ShowAssistant("Hi there");
  }

  /** The three steps chained. */
  lemma HelloRun(c: Client, decode: Decoder)
    requires c.socket == Open && !c.isProcessing && c.lastRequestTime == 0 && c.startTime == 0
    requires c.responseTimes == [] && c.totalRequests == 0
    ensures var c3 := c.(isProcessing := true, lastRequestTime := 10000, startTime := 10000, input := []);
      Run(c, [Typed("hello"), PressEnter(10000), Received("Hi there", 10250)], decode)
        == Step(c3.(responseTimes := [250], totalRequests := 1, isProcessing := false,
                    store := Stats.Save(c3.store, Stats.Ledger(1, [250]))),
                [ShowUser("hello"), SendText("text:hello")] + [ShowStats(250, 1), ShowAssistant("Hi there")])
  {
    var c2 := c.(input := "hello");
    HelloRunFromEnter(c2, decode);
    RunKnownStep(c, Typed("hello"), [PressEnter(10000), Received("Hi there", 10250)], decode, Step(c2, []));
    assert c2.(isProcessing := true, lastRequestTime := 10000, startTime := 10000, input := [])
        == c.(isProcessing := true, lastRequestTime := 10000, startTime := 10000, input := []);
  }

  lemma HelloRunFromEnter(c: Client, decode: Decoder)
    requires c.input == "hello" && c.socket == Open && !c.isProcessing && c.lastRequestTime == 0
    requires c.responseTimes == [] && c.totalRequests == 0
    ensures var c3 := c.(isProcessing := true, lastRequestTime := 10000, startTime := 10000, input := []);
      Run(c, [PressEnter(10000), Received("Hi there", 10250)], decode)
        == Step(c3.(responseTimes := [250], totalRequests := 1, isProcessing := false,
                    store := Stats.Save(c3.store, Stats.Ledger(1, [250]))),
                [ShowUser("hello"), SendText("text:hello")] + [ShowStats(250, 1), ShowAssistant("Hi there")])
  {
    var c3 := c.(isProcessing := true, lastRequestTime := 10000, startTime := 10000, input := []);
    var c4 := c3.(responseTimes := [250], totalRequests := 1, isProcessing := false,
                  store := Stats.Save(c3.store, Stats.Ledger(1, [250])));
    var sent := [ShowUser("hello"), SendText("text:hello")];
    var shown := [ShowStats(250, 1), ShowAssistant("Hi there")];
    HelloSent(c, decode);
    HelloAnswered(c3, decode);
    RunKnownStep(c3, Received("Hi there", 10250), [], decode, Step(c4, shown));
    RunKnownStep(c, PressEnter(10000), [Received("Hi there", 10250)], decode, Step(c3, sent));
    assert sent + (shown + []) == sent + shown;
  }

  /** The first step of the scenario: Enter sends `text:hello` and closes the gate. */
  lemma HelloSent(c: Client, decode: Decoder)
    requires c.input == "hello" && c.socket == Open && !c.isProcessing && c.lastRequestTime == 0
    ensures Handle(c, PressEnter(10000), decode)
      == Step(c.(isProcessing := true, lastRequestTime := 10000, startTime := 10000, input := []),
              [ShowUser("hello"), SendText("text:hello")])
  {
    assert Trim("hello") == "hello" by {
      TrimNoSpace("hello");
    }
    assert TextGateOpen(c) && !TooSoon(c, 10000);
    assert TextPrefix + "hello" == "text:hello";
  }

  /** The second step: the reply 250 ms later is recorded and shown. */
  lemma HelloAnswered(c: Client, decode: Decoder)
    requires c.startTime == 10000 && c.responseTimes == [] && c.totalRequests == 0
    ensures Handle(c, Received("Hi there", 10250), decode)
      == Step(c.(responseTimes := [250], totalRequests := 1, isProcessing := false,
                 store := Stats.Save(c.store, Stats.Ledger(1, [250]))),
              [ShowStats(250, 1), ShowAssistant("Hi there")])
  {
    assert Stats.Mean([250]) == 250 by {
      assert [250][..0] == [];
    }
  }

  /** The texts among the scenario's effects. */
  lemma HelloTexts()
    ensures TextsSent([ShowUser("hello"), SendText("text:hello")]) == ["text:hello"]
    ensures TextsSent([ShowStats(250, 1), ShowAssistant("Hi there")]) == []
  {
    var sent := [ShowUser("hello"), SendText("text:hello")];
    assert sent[1..][1..] == [];
    assert TextsSent(sent[1..]) == ["text:hello"];
    var shown := [ShowStats(250, 1), ShowAssistant("Hi there")];
    assert shown[1..][1..] == [];
    assert TextsSent(shown[1..]) == [];
  }

  /** `Run` over an event whose step is known. */
  lemma RunKnownStep(c: Client, e: Event, rest: seq<Event>, decode: Decoder, s: Step)
    requires Handle(c, e, decode) == s
    ensures var r := Run(s.client, rest, decode);
      Run(c, [e] + rest, decode) == Step(r.client, s.effects + r.effects)
  {
    assert ([e] + rest)[1..] == rest;
  }

  lemma {:induction false} TextsSentAppend(a: seq<Effect>, b: seq<Effect>)
    ensures TextsSent(a + b) == TextsSent(a) + TextsSent(b)
  {
    if a != [] {
      assert (a + b)[0] == a[0];
      assert (a + b)[1..] == a[1..] + b;
      TextsSentAppend(a[1..], b);
    } else {
      assert a + b == b;
    }
  }
}

=== FILE: conversation.dfy ===
/** Client and server together: the messages the browser puts on the socket, read by
    the server's receive loop. */
module Conversation {
  import opened Wrappers
  import opened Wire
  import Pcm
  import Client
  import Frames
  import Server
  import History

  /** The messages a list of client effects puts on the socket, in order: text and
      binary sends, and the close frame. */
  function OnTheWire(effects: seq<Client.Effect>): (r: seq<Frames.Message>)
    ensures |r| <= |effects|
    ensures (forall i :: 0 <= i < |effects| ==> !OnSocket(effects[i])) ==> r == []
    ensures effects != [] && OnSocket(effects[0]) ==> |r| > 0 && r[0] == Frame(effects[0])
  {
    if effects == [] then []
    else
      var here := if OnSocket(effects[0]) then [Frame(effects[0])] else [];
      here + OnTheWire(effects[1..])
  }

  /** The effect puts a message on the socket. */
  predicate OnSocket(e: Client.Effect) {
    e.SendText? || e.SendBinary? || e.CloseSocket?
  }

  /** The message a socket effect puts on the wire. */
  function Frame(e: Client.Effect): Frames.Message
    requires OnSocket(e)
  {
    match e
    case SendText(t) => Frames.Text(t)
    case SendBinary(data) => Frames.Binary(data)
    case CloseSocket(_, _) => Frames.Close
  }

  /** The messages of joined effect lists are the joined messages. */
  lemma {:induction false} OnTheWireAppend(a: seq<Client.Effect>, b: seq<Client.Effect>)
    ensures OnTheWire(a + b) == OnTheWire(a) + OnTheWire(b)
  {
    if a == [] {
      OnTheWireEmptyFront(a, b);
    } else {
      var here := if OnSocket(a[0]) then [Frame(a[0])] else [];
      OnTheWireUnfold(a, b);
      OnTheWireAppend(a[1..], b);
      PrependAssoc(here, OnTheWire(a[1..]), OnTheWire(b), OnTheWire(a[1..] + b));
    }
  }

  /** No effects in front add no messages. */
  lemma OnTheWireEmptyFront(a: seq<Client.Effect>, b: seq<Client.Effect>)
    requires a == []
    ensures OnTheWire(a + b) == OnTheWire(a) + OnTheWire(b)
  {
    assert a + b == b;
  }

  /** Both `a` and `a + b` put the message of `a`'s first effect, if any, in front of
      the messages of the rest. */
  lemma OnTheWireUnfold(a: seq<Client.Effect>, b: seq<Client.Effect>)
    requires a != []
    ensures var here := if OnSocket(a[0]) then [Frame(a[0])] else [];
      && OnTheWire(a + b) == here + OnTheWire(a[1..] + b)
      && OnTheWire(a) == here + OnTheWire(a[1..])
  {
    assert (a + b)[0] == a[0] && (a + b)[1..] == a[1..] + b;
  }

  /** Putting `h` in front of a join is joining `h` with its first part first. */
  lemma PrependAssoc<T>(h: seq<T>, x: seq<T>, y: seq<T>, z: seq<T>)
    requires z == x + y
    ensures h + z == (h + x) + y
  {
  }

  /** A voice request reaches the server whole: the frame ends at the marker and the
      bytes the server hands to transcription decode to exactly the client's quantised
      samples, unless the PCM bytes happen to contain the marker. */
  lemma VoiceRoundTrip(c: Client.Client, now: int, decode: Client.Decoder, history: seq<History.Pair>)
    requires c.audioChunks != [] && decode(c.audioChunks).Some? && c.socket == Client.Open
    requires Frames.FindMarker(Pcm.EncodePcm(decode(c.audioChunks).value)).None?
    ensures var s := Client.ProcessAudio(c, now, decode);
      var r := Frames.Receive(Frames.FrameState([], false, history, []), OnTheWire(s.effects));
      && r.end == Frames.AtMarker && r.state.recording
      && |r.state.buffer| % 2 == 0
      && Pcm.DecodeWords(r.state.buffer) == Pcm.Quantise(decode(c.audioChunks).value)
  {
    var samples := decode(c.audioChunks).value;
    var pcm := Pcm.EncodePcm(samples);
    var s := Client.ProcessAudio(c, now, decode);
    assert s.effects == [Client.ShowCount(c.requestCount + 1), Client.SendBinary(pcm), Client.SendBinary(EndStream)];
    assert OnTheWire(s.effects) == [Frames.Binary(pcm), Frames.Binary(EndStream)] by {
      assert s.effects[1..][1..][1..] == [];
    }
    Server.VoiceRequestDeliversAudio(history, pcm);
  }

  /** Five samples whose PCM bytes spell `END_STREAM`. */
  const MarkerSamples: seq<real> :=
    [20037.0 / 32767.0, 24388.0 / 32767.0, 21587.0 / 32767.0, 17746.0 / 32767.0, 19777.0 / 32767.0]

  /** These five samples quantise exactly and their PCM bytes spell `END_STREAM`. */
  lemma MarkerSamplesSpellMarker()
    ensures Pcm.Quantise(MarkerSamples) == [20037, 24388, 21587, 17746, 19777]
    ensures Pcm.EncodePcm(MarkerSamples) == EndStream
  {
    assert Pcm.Quantise(MarkerSamples) == [20037, 24388, 21587, 17746, 19777];
    var words := [20037, 24388, 21587, 17746, 19777];
    assert Pcm.EncodeWords(words) == EndStream by {
      assert words[1..][1..][1..][1..][1..] == [];
    }
  }

  /** The marker is searched inside audio too: a recording whose PCM bytes contain the
      marker's bytes is cut there. The recording above is sent as the marker itself, so
      the server sees two lone markers, reports `Нет аудио данных` twice and never
      transcribes anything. */
  lemma MarkerInsideAudio(svc: Server.Services, history: seq<History.Pair>)
    ensures Server.Session(svc, history, [Frames.Binary(Pcm.EncodePcm(MarkerSamples)), Frames.Binary(EndStream)])
      == Server.SessionResult(history, [Server.NoAudio, Server.NoAudio], Server.Waiting([], false))
  {
    MarkerSamplesSpellMarker();
    Server.LoneMarkerReportsNoAudio(svc, history);
    Server.LeadingMarkerReportsNoAudio(svc, history, [Frames.Binary(EndStream)]);
    assert [Frames.Binary(EndStream), Frames.Binary(EndStream)] == [Frames.Binary(EndStream)] + [Frames.Binary(EndStream)];
  }

  /** A text request gets no reply: the server ignores `text:` messages, so the client's
      gate closed by the request stays closed through any events that bring no
      response, and no further text request goes out. */
  lemma TextRequestGetsNoReply(c: Client.Client, now: int, svc: Server.Services, history: seq<History.Pair>)
    requires Client.TextGateOpen(c) && !Client.TooSoon(c, now)
    ensures var s := Client.SubmitText(c, now);
      Server.Session(svc, history, OnTheWire(s.effects))
        == Server.SessionResult(history, [], Server.Waiting([], false))
    ensures var s := Client.SubmitText(c, now);
      forall events, decode :: Client.Responses(events) == 0 ==>
        && Client.Run(s.client, events, decode).client.isProcessing
        && Client.TextRequests(Client.Run(s.client, events, decode).effects) == 0
  {
    var s := Client.SubmitText(c, now);
    var m := Client.Trim(c.input);
    assert s.effects == [Client.ShowUser(m), Client.SendText(Client.TextPrefix + m)];
    assert OnTheWire(s.effects) == [Frames.Text("text:" + m)] by {
      assert s.effects[1..][1..] == [];
    }
    Server.TextRequestIsIgnored(svc, history, m);
    forall events, decode | Client.Responses(events) == 0
      ensures Client.Run(s.client, events, decode).client.isProcessing
      ensures Client.TextRequests(Client.Run(s.client, events, decode).effects) == 0
    {
      Client.GateHeldWithoutResponse(s.client, events, decode);
    }
  }
}

=== FILE: frames.dfy ===
/** The inner receive loop of the server's WebSocket handler (`handle_websocket`):
    messages are read one at a time into a frame — the audio bytes of one voice request
    — until a binary message containing the `END_STREAM` marker ends it, a close or a
    receive error ends the connection, or the stream runs out. Text commands are
    answered on the way. A finite message list stands for the messages received so
    far. */
module Frames {
  import opened Wrappers
  import opened Wire
  import opened History

  /** A received WebSocket message; `Control` stands for the protocol-level ping and
      pong frames, which the loop ignores, and `Ended` for `recv` yielding nothing once
      the stream is over. */
  datatype Message = Binary(data: seq<byte>) | Text(text: string) | Close | Error(reason: string) | Control | Ended

  /** The ten bytes of `data` starting at `pos` are the marker. */
  predicate MarkerAt(data: seq<byte>, pos: int) {
    0 <= pos && pos + |EndStream| <= |data| && data[pos..pos + |EndStream|] == EndStream
  }

  /** `data.windows(10).position(..)`, continued from window `from`. */
  function FindMarkerFrom(data: seq<byte>, from: nat): (r: Option<nat>)
    decreases |data| - from
    ensures r.Some? ==> from <= r.value && r.value + |EndStream| <= |data|
  {
    if from + |EndStream| > |data| then None
    else if data[from..from + |EndStream|] == EndStream then Some(from)
    else FindMarkerFrom(data, from + 1)
  }

  /** The search finds the first marker position at or after `from`, and finds nothing
      only when there is none. */
  lemma {:induction false} FindMarkerFromIsFirst(data: seq<byte>, from: nat)
    ensures var r := FindMarkerFrom(data, from);
      && (r.Some? ==> MarkerAt(data, r.value) && forall p :: from <= p < r.value ==> !MarkerAt(data, p))
      && (r.None? ==> forall p :: from <= p ==> !MarkerAt(data, p))
    decreases |data| - from
  {
    if from + |EndStream| <= |data| && data[from..from + |EndStream|] != EndStream {
      FindMarkerFromIsFirst(data, from + 1);
    }
  }

  /** The position of the marker within one binary message, if any. */
  function FindMarker(data: seq<byte>): (r: Option<nat>)
    ensures r.Some? ==> r.value + |EndStream| <= |data|
    ensures r.Some? ==> MarkerAt(data, r.value)
    ensures r.None? ==> forall p :: !MarkerAt(data, p)
  {
    FindMarkerFromIsFirst(data, 0);
    FindMarkerFrom(data, 0)
  }

  /** `FindMarker` yields the first position of the marker, and yields nothing exactly
      when the message does not contain it. */
  lemma FindMarkerIsFirst(data: seq<byte>)
    ensures FindMarker(data).Some? <==> exists p :: MarkerAt(data, p)
    ensures FindMarker(data).Some? ==> MarkerAt(data, FindMarker(data).value)
    ensures FindMarker(data).Some? ==> forall p :: 0 <= p < FindMarker(data).value ==> !MarkerAt(data, p)
  {
    FindMarkerFromIsFirst(data, 0);
  }

  const Pong := "pong"

  const ContextCleared := "Контекст очищен! Начинаем новый разговор."

  /** The state of one frame: the audio bytes so far, whether any binary message
      arrived, the conversation history, and the replies sent so far. */
  datatype FrameState = FrameState(buffer: seq<byte>, recording: bool, history: seq<Pair>, replies: seq<string>)

  /** How the inner loop stopped: at the marker, at a close, at a receive error, at the
      end of the stream, or not yet (the received messages ran out inside the frame). */
  datatype FrameEnd = AtMarker | ClientClosed | ReceiveFailed | StreamEnded | Pending

  /** The state reached, why the loop stopped, and how many messages it read. */
  datatype Received = Received(state: FrameState, end: FrameEnd, used: nat)

  /** The message makes the inner loop stop. */
  predicate EndsFrame(m: Message) {
    m.Close? || m.Error? || m.Ended? || (m.Binary? && FindMarker(m.data).Some?)
  }

  /** One message that does not end the frame: binary data is appended whole; `ping`
      is answered with `pong`; `clear_context` empties the history and is confirmed;
      every other text (a `text:` request included) and every control frame is
      ignored. */
  function Absorb(st: FrameState, m: Message): (r: FrameState)
    requires !EndsFrame(m)
    ensures m.Binary? ==> r == st.(buffer := st.buffer + m.data, recording := true)
    ensures m == Text("ping") ==> r == st.(replies := st.replies + [Pong])
    ensures m == Text("clear_context") ==> r == st.(history := [], replies := st.replies + [ContextCleared])
    ensures !m.Binary? && m != Text("ping") && m != Text("clear_context") ==> r == st
  {
    match m
    case Binary(data) => st.(buffer := st.buffer + data, recording := true)
    case Text(t) =>
      if t == "ping" then st.(replies := st.replies + [Pong])
      else if t == "clear_context" then st.(history := [], replies := st.replies + [ContextCleared])
      else st
    case Control => st
  }

  /** Reads messages until the frame ends. */
  function Receive(st: FrameState, msgs: seq<Message>): (r: Received)
    decreases |msgs|
    ensures r.used <= |msgs|
    ensures r.end == Pending ==> r.used == |msgs|
    ensures r.end != Pending ==> 0 < r.used && EndsFrame(msgs[r.used - 1])
    ensures r.end == ClientClosed ==> msgs[r.used - 1].Close?
    ensures r.end == ReceiveFailed ==> msgs[r.used - 1].Error?
    ensures r.end == StreamEnded ==> msgs[r.used - 1].Ended?
    ensures r.end == AtMarker ==> msgs[r.used - 1].Binary?
    ensures r.state.history == st.history || r.state.history == []
  {
    if msgs == [] then Received(st, Pending, 0)
    else
      var m := msgs[0];
      if m.Close? then Received(st, ClientClosed, 1)
      else if m.Error? then Received(st, ReceiveFailed, 1)
      else if m.Ended? then Received(st, StreamEnded, 1)
      else if m.Binary? && FindMarker(m.data).Some? then
        var pos := FindMarker(m.data).value;
        Received(st.(buffer := st.buffer + m.data[..pos], recording := true), AtMarker, 1)
      else
        var next := Receive(Absorb(st, m), msgs[1..]);
        Received(next.state, next.end, next.used + 1)
  }

  /** The frame stops at the first message that ends it, and only there; it is still
      open exactly when no received message ends it. */
  lemma {:induction false} ReceiveStopsAtFirstEnd(st: FrameState, msgs: seq<Message>)
    ensures var r := Receive(st, msgs);
      && (forall i :: 0 <= i < r.used - 1 ==> !EndsFrame(msgs[i]))
      && (r.end == Pending <==> forall i :: 0 <= i < |msgs| ==> !EndsFrame(msgs[i]))
    decreases |msgs|
  {
    if msgs != [] && !EndsFrame(msgs[0]) {
      var tail := msgs[1..];
      ReceiveStopsAtFirstEnd(Absorb(st, msgs[0]), tail);
      var next := Receive(Absorb(st, msgs[0]), tail);
      assert Receive(st, msgs) == Received(next.state, next.end, next.used + 1);
      assert forall i :: 1 <= i < |msgs| ==> msgs[i] == tail[i - 1];
    }
  }

  /** The bytes of the binary messages in `msgs`, in order. */
  function Payload(msgs: seq<Message>): seq<byte> {
    if msgs == [] then [] else (if msgs[0].Binary? then msgs[0].data else []) + Payload(msgs[1..])
  }

  predicate HasBinary(msgs: seq<Message>) {
    exists i :: 0 <= i < |msgs| && msgs[i].Binary?
  }

  predicate ClearsContext(msgs: seq<Message>) {
    exists i :: 0 <= i < |msgs| && msgs[i] == Text("clear_context")
  }

  /** The replies the text commands among `msgs` produce, in order. */
  function CommandReplies(msgs: seq<Message>): seq<string> {
    if msgs == [] then []
    else
      var here := if msgs[0] == Text("ping") then [Pong]
        else if msgs[0] == Text("clear_context") then [ContextCleared]
        else [];
      here + CommandReplies(msgs[1..])
  }

  /** The bytes of the frame before the marker: the payload of the messages that did
      not end the frame, then the part of the ending message before its marker. */
  function BytesBeforeMarker(msgs: seq<Message>, used: nat): seq<byte>
    requires 0 < used <= |msgs| && msgs[used - 1].Binary? && FindMarker(msgs[used - 1].data).Some?
  {
    Payload(msgs[..used - 1]) + msgs[used - 1].data[..FindMarker(msgs[used - 1].data).value]
  }

  /** Splits the messages a frame read into the first and the rest. */
  lemma UsedTail(st: FrameState, msgs: seq<Message>)
    requires msgs != [] && !EndsFrame(msgs[0])
    ensures var r := Receive(st, msgs);
      var next := Receive(Absorb(st, msgs[0]), msgs[1..]);
      && r == Received(next.state, next.end, next.used + 1)
      && msgs[..r.used] == [msgs[0]] + msgs[1..][..next.used]
  {
    var next := Receive(Absorb(st, msgs[0]), msgs[1..]);
    assert Receive(st, msgs) == Received(next.state, next.end, next.used + 1);
    PrefixCons(msgs, next.used);
  }

  lemma PrefixCons<T>(s: seq<T>, n: nat)
    requires n < |s|
    ensures s[..n + 1] == [s[0]] + s[1..][..n]
  {
  }

  /** `recording` is set exactly when the frame read a binary message. */
  lemma {:induction false} ReceiveRecording(st: FrameState, msgs: seq<Message>)
    ensures var r := Receive(st, msgs);
      r.state.recording == (st.recording || exists i :: 0 <= i < r.used && msgs[i].Binary?)
    decreases |msgs|
  {
    if msgs != [] && !EndsFrame(msgs[0]) {
      var m := msgs[0];
      var tail := msgs[1..];
      var next := Receive(Absorb(st, m), tail);
      ReceiveRecording(Absorb(st, m), tail);
      var r := Receive(st, msgs);
      assert r == Received(next.state, next.end, next.used + 1);
      if exists j :: 0 <= j < next.used && tail[j].Binary? {
        var j :| 0 <= j < next.used && tail[j].Binary?;
        assert msgs[j + 1].Binary?;
      }
      if !m.Binary? && exists i :: 0 <= i < r.used && msgs[i].Binary? {
        var i :| 0 <= i < r.used && msgs[i].Binary?;
        assert tail[i - 1].Binary?;
      }
    }
  }

  /** The history survives the frame unless a `clear_context` arrived, which empties it. */
  lemma {:induction false} ReceiveHistory(st: FrameState, msgs: seq<Message>)
    ensures var r := Receive(st, msgs);
      r.state.history == (if ClearsContext(msgs[..r.used]) then [] else st.history)
    decreases |msgs|
  {
    if msgs != [] && !EndsFrame(msgs[0]) {
      var m := msgs[0];
      UsedTail(st, msgs);
      ReceiveHistory(Absorb(st, m), msgs[1..]);
      var r := Receive(st, msgs);
      var used := msgs[..r.used];
      if ClearsContext(used[1..]) {
        var i :| 0 <= i < |used[1..]| && used[1..][i] == Text("clear_context");
        assert used[i + 1] == Text("clear_context");
      }
      if ClearsContext(used) && m != Text("clear_context") {
        var i :| 0 <= i < |used| && used[i] == Text("clear_context");
        assert used[1..][i - 1] == Text("clear_context");
      }
    } else if msgs != [] {
      assert msgs[..Receive(st, msgs).used] == [msgs[0]];
    }
  }

  /** One reply per `ping` and per `clear_context`, in arrival order, and no other. */
  lemma {:induction false} ReceiveReplies(st: FrameState, msgs: seq<Message>)
    ensures var r := Receive(st, msgs);
      r.state.replies == st.replies + CommandReplies(msgs[..r.used])
    decreases |msgs|
  {
    if msgs != [] && !EndsFrame(msgs[0]) {
      UsedTail(st, msgs);
      ReceiveReplies(Absorb(st, msgs[0]), msgs[1..]);
    } else if msgs != [] {
      var used := msgs[..Receive(st, msgs).used];
      assert used == [msgs[0]];
      assert CommandReplies(used) == [] + CommandReplies([]);
    }
  }

  /** When the frame ends without the marker (a close, an error, or no end yet), the
      buffer has every binary payload whole. */
  lemma {:induction false} ReceiveBufferWhole(st: FrameState, msgs: seq<Message>)
    ensures var r := Receive(st, msgs);
      r.end != AtMarker ==> r.state.buffer == st.buffer + Payload(msgs[..r.used])
    decreases |msgs|
  {
    if msgs != [] && !EndsFrame(msgs[0]) {
      var m := msgs[0];
      var next := Receive(Absorb(st, m), msgs[1..]);
      var read := msgs[1..][..next.used];
      UsedTail(st, msgs);
      ReceiveBufferWhole(Absorb(st, m), msgs[1..]);
      AbsorbBuffer(st, m);
      assert ([m] + read)[1..] == read;
      assert Payload([m] + read) == (if m.Binary? then m.data else []) + Payload(read);
      ConcatAssoc(st.buffer, if m.Binary? then m.data else [], Payload(read));
    } else if msgs != [] {
      var r := Receive(st, msgs);
      assert msgs[..r.used] == [msgs[0]];
      assert Payload([msgs[0]]) == (if msgs[0].Binary? then msgs[0].data else []) + Payload([]);
    }
  }

  /** When the frame ends at the marker, the buffer has the earlier binary payloads whole
      and the bytes of the last message before the marker; the rest of that message is
      dropped. */
  lemma {:induction false} ReceiveBufferAtMarker(st: FrameState, msgs: seq<Message>)
    ensures var r := Receive(st, msgs);
      r.end == AtMarker ==> r.state.buffer == st.buffer + BytesBeforeMarker(msgs, r.used)
    decreases |msgs|
  {
    if msgs == [] {
      return;
    }
    var m := msgs[0];
    if !EndsFrame(m) {
      ReceiveBufferAtMarker(Absorb(st, m), msgs[1..]);
      BufferAtMarkerStep(st, msgs);
    } else if m.Binary? && FindMarker(m.data).Some? {
      var pos := FindMarker(m.data).value;
      assert Receive(st, msgs) == Received(st.(buffer := st.buffer + m.data[..pos], recording := true), AtMarker, 1);
      assert msgs[..0] == [];
      assert BytesBeforeMarker(msgs, 1) == m.data[..pos];
    }
  }

  lemma AbsorbBuffer(st: FrameState, m: Message)
    requires !EndsFrame(m)
    ensures Absorb(st, m).buffer == st.buffer + (if m.Binary? then m.data else [])
  {
    if !m.Binary? {
      assert st.buffer + [] == st.buffer;
    }
  }

  lemma ConcatAssoc<T>(a: seq<T>, b: seq<T>, c: seq<T>)
    ensures (a + b) + c == a + (b + c)
  {
  }

  /** The inductive step of `ReceiveBufferAtMarker`: a message that does not end the
      frame puts its payload in front of the bytes the rest of the frame collects. */
  lemma BufferAtMarkerStep(st: FrameState, msgs: seq<Message>)
    requires msgs != [] && !EndsFrame(msgs[0])
    requires var next := Receive(Absorb(st, msgs[0]), msgs[1..]);
      next.end == AtMarker ==>
        next.state.buffer == Absorb(st, msgs[0]).buffer + BytesBeforeMarker(msgs[1..], next.used)
    ensures var r := Receive(st, msgs);
      r.end == AtMarker ==> r.state.buffer == st.buffer + BytesBeforeMarker(msgs, r.used)
  {
    var m, tail := msgs[0], msgs[1..];
    var next := Receive(Absorb(st, m), tail);
    assert Receive(st, msgs) == Received(next.state, next.end, next.used + 1);
    if next.end == AtMarker {
      var n := next.used;
      var d := if m.Binary? then m.data else [];
      BytesBeforeMarkerCons(msgs, n);
      AbsorbBuffer(st, m);
      ConcatAssoc(st.buffer, d, BytesBeforeMarker(tail, n));
    }
  }

  /** The bytes before the marker start with the first message's payload. */
  lemma BytesBeforeMarkerCons(msgs: seq<Message>, n: nat)
    requires 0 < n < |msgs| && msgs[n].Binary? && FindMarker(msgs[n].data).Some?
    ensures BytesBeforeMarker(msgs, n + 1)
      == (if msgs[0].Binary? then msgs[0].data else []) + BytesBeforeMarker(msgs[1..], n)
  {
    var tail := msgs[1..];
    var d := if msgs[0].Binary? then msgs[0].data else [];
    var pre := msgs[..n];
    assert pre[0] == msgs[0] && pre[1..] == tail[..n - 1];
    var p := Payload(tail[..n - 1]);
    assert Payload(pre) == d + p;
    assert msgs[n] == tail[n - 1];
    var cut := tail[n - 1].data[..FindMarker(tail[n - 1].data).value];
    ConcatAssoc(d, p, cut);
  }

  /** The marker is searched only inside one message: split across two messages it does
      not end the frame, and its bytes are kept as audio. */
  lemma SplitMarkerDoesNotEndFrame(st: FrameState)
    ensures var r := Receive(st, [Binary(EndStream[..5]), Binary(EndStream[5..])]);
      r.end == Pending && r.state.buffer == st.buffer + EndStream
  {
    var msgs := [Binary(EndStream[..5]), Binary(EndStream[5..])];
    assert FindMarker(EndStream[..5]).None?;
    assert FindMarker(EndStream[5..]).None?;
    var st1 := Absorb(st, msgs[0]);
    var st2 := Absorb(st1, msgs[1]);
    assert msgs[1..][1..] == [];
    assert Receive(st2, []) == Received(st2, Pending, 0);
    assert Receive(st1, msgs[1..]) == Received(st2, Pending, 1);
    assert Receive(st, msgs) == Received(st2, Pending, 2);
    assert st.buffer + EndStream[..5] + EndStream[5..] == st.buffer + EndStream;
  }
}

=== FILE: history.dfy ===
/** The server's per-connection conversation history: a list of
    (recognised text, answer) pairs, extended after every successful exchange and
    trimmed from the front to at most ten pairs (`process_audio_with_context`). */
module History {

  type Pair = (string, string)

  const MaxPairs: nat := 10

  predicate IsSuffix<T(==)>(r: seq<T>, s: seq<T>) {
    |r| <= |s| && r == s[|s| - |r|..]
  }

  /** Push the new pair; if the list is then longer than ten, remove its first element. */
  function Remember(history: seq<Pair>, text: string, answer: string): (r: seq<Pair>)
    ensures |r| > 0 && r[|r| - 1] == (text, answer)
    ensures IsSuffix(r, history + [(text, answer)])
    ensures |history| < MaxPairs ==> r == history + [(text, answer)]
    ensures |history| >= MaxPairs ==> |r| == |history|
    ensures |history| <= MaxPairs ==> |r| <= MaxPairs
  {
    var pushed := history + [(text, answer)];
    if |pushed| > MaxPairs then pushed[1..] else pushed
  }

  /** A run of successful exchanges, oldest first. */
  function RememberAll(history: seq<Pair>, exchanges: seq<Pair>): seq<Pair>
    decreases |exchanges|
  {
    if exchanges == [] then history
    else RememberAll(Remember(history, exchanges[0].0, exchanges[0].1), exchanges[1..])
  }

  lemma SuffixExtend<T>(a: seq<T>, b: seq<T>, c: seq<T>)
    requires IsSuffix(a, b)
    ensures IsSuffix(a + c, b + c)
  {
    assert (b + c)[|b + c| - |a + c|..] == b[|b| - |a|..] + c;
  }

  lemma SuffixTransitive<T>(a: seq<T>, b: seq<T>, c: seq<T>)
    requires IsSuffix(a, b) && IsSuffix(b, c)
    ensures IsSuffix(a, c)
  {
    assert c[|c| - |b|..][|b| - |a|..] == c[|c| - |a|..];
  }

  /** However many exchanges happen, the history holds the last ten of them (all of
      them while there are fewer). */
  lemma {:induction false} RememberAllLength(history: seq<Pair>, exchanges: seq<Pair>)
    requires |history| <= MaxPairs
    ensures |RememberAll(history, exchanges)| == if |history| + |exchanges| < MaxPairs then |history| + |exchanges| else MaxPairs
    decreases |exchanges|
  {
    if exchanges != [] {
      var next := Remember(history, exchanges[0].0, exchanges[0].1);
      assert |next| == if |history| < MaxPairs then |history| + 1 else MaxPairs;
      RememberAllLength(next, exchanges[1..]);
      assert RememberAll(history, exchanges) == RememberAll(next, exchanges[1..]);
    } else {
      assert RememberAll(history, exchanges) == history;
    }
  }

  /** The history is always a suffix of everything exchanged: the most recent pairs, in
      their original order. */
  lemma {:induction false} RememberAllKeepsNewest(history: seq<Pair>, exchanges: seq<Pair>)
    ensures IsSuffix(RememberAll(history, exchanges), history + exchanges)
    decreases |exchanges|
  {
    if exchanges == [] {
      assert history + exchanges == history;
    } else {
      var next := Remember(history, exchanges[0].0, exchanges[0].1);
      RememberAllKeepsNewest(next, exchanges[1..]);
      SuffixExtend(next, history + [exchanges[0]], exchanges[1..]);
      assert history + [exchanges[0]] + exchanges[1..] == history + exchanges;
      SuffixTransitive(RememberAll(next, exchanges[1..]), next + exchanges[1..], history + exchanges);
    }
  }
}

=== FILE: pcm.dfy ===
/** The client's sample encoder (`audioBufferToPCM`): each decoded sample of channel 0
    is clamped to [-1, 1], scaled by 32768 when negative and by 32767 otherwise, and
    stored in an `Int16Array`, whose conversion truncates toward zero. The array's
    buffer is sent as little-endian 16-bit words. Samples are modelled as reals. */
module Pcm {
  import opened Wire

  const NegativeScale: real := 32768.0
  const PositiveScale: real := 32767.0

  predicate IsInt16(v: int) {
    -32768 <= v <= 32767
  }

  /** `Math.max(-1, Math.min(1, x))`. */
  function Clamp(x: real): (r: real)
    ensures -1.0 <= r <= 1.0
    ensures -1.0 <= x <= 1.0 ==> r == x
    ensures x > 1.0 ==> r == 1.0
    ensures x < -1.0 ==> r == -1.0
  {
    if x > 1.0 then 1.0 else if x < -1.0 then -1.0 else x
  }

  /** The integer part of `x`, rounding toward zero, as a store into an `Int16Array` does. */
  function Truncate(x: real): (r: int)
    ensures x >= 0.0 ==> 0 <= r && r as real <= x < r as real + 1.0
    ensures x < 0.0 ==> r <= 0 && r as real - 1.0 < x <= r as real
  {
    if x >= 0.0 then x.Floor else -((-x).Floor)
  }

  lemma TruncateMonotonic(x: real, y: real)
    requires x <= y
    ensures Truncate(x) <= Truncate(y)
  {
    if x >= 0.0 || y < 0.0 {
      assert x.Floor <= y.Floor;
      assert (-y).Floor <= (-x).Floor;
    }
  }

  /** One 16-bit sample. */
  function QuantiseSample(x: real): (r: int)
    ensures IsInt16(r)
    ensures x >= 1.0 ==> r == 32767
    ensures x <= -1.0 ==> r == -32768
    ensures x == 0.0 ==> r == 0
    ensures r < 0 ==> x < 0.0
    ensures r > 0 ==> x > 0.0
  {
    var s := Clamp(x);
    if s < 0.0 then Truncate(s * NegativeScale) else Truncate(s * PositiveScale)
  }

  /** Quantisation preserves the order of samples. */
  lemma QuantiseSampleMonotonic(x: real, y: real)
    requires x <= y
    ensures QuantiseSample(x) <= QuantiseSample(y)
  {
    var sx, sy := Clamp(x), Clamp(y);
    assert sx <= sy;
    if sx < 0.0 && sy < 0.0 {
      TruncateMonotonic(sx * NegativeScale, sy * NegativeScale);
    } else if sx >= 0.0 && sy >= 0.0 {
      TruncateMonotonic(sx * PositiveScale, sy * PositiveScale);
    }
  }

  /** The whole channel, sample by sample. */
  function Quantise(xs: seq<real>): (r: seq<int>)
    ensures |r| == |xs|
    ensures forall i :: 0 <= i < |xs| ==> r[i] == QuantiseSample(xs[i])
    ensures forall i :: 0 <= i < |r| ==> IsInt16(r[i])
  {
    seq(|xs|, i requires 0 <= i < |xs| => QuantiseSample(xs[i]))
  }

  /** Two's-complement little-endian bytes of one 16-bit word. */
  function EncodeWord(v: int): (r: seq<byte>)
    requires IsInt16(v)
    ensures |r| == 2
  {
    var u := if v < 0 then v + 65536 else v;
    [(u % 256) as byte, (u / 256) as byte]
  }

  /** The 16-bit word stored in two little-endian bytes. */
  function DecodeWord(lo: byte, hi: byte): (r: int)
    ensures IsInt16(r)
  {
    var u := lo as int + 256 * hi as int;
    if u >= 32768 then u - 65536 else u
  }

  /** The `Int16Array`'s buffer: two bytes per sample. */
  function EncodeWords(vs: seq<int>): (r: seq<byte>)
    requires forall i :: 0 <= i < |vs| ==> IsInt16(vs[i])
    ensures |r| == 2 * |vs|
  {
    if vs == [] then [] else EncodeWord(vs[0]) + EncodeWords(vs[1..])
  }

  /** Reading a buffer of little-endian words back, two bytes at a time. */
  function DecodeWords(bs: seq<byte>): (r: seq<int>)
    requires |bs| % 2 == 0
    ensures |r| == |bs| / 2
    ensures forall i :: 0 <= i < |r| ==> IsInt16(r[i])
  {
    if bs == [] then [] else [DecodeWord(bs[0], bs[1])] + DecodeWords(bs[2..])
  }

  lemma WordRoundTrip(v: int)
    requires IsInt16(v)
    ensures DecodeWord(EncodeWord(v)[0], EncodeWord(v)[1]) == v
  {
  }

  /** The byte buffer the client sends decodes back to exactly the quantised samples. */
  lemma {:induction false} WordsRoundTrip(vs: seq<int>)
    requires forall i :: 0 <= i < |vs| ==> IsInt16(vs[i])
    ensures DecodeWords(EncodeWords(vs)) == vs
  {
    if vs != [] {
      var bs := EncodeWords(vs);
      WordRoundTrip(vs[0]);
      assert bs[2..] == EncodeWords(vs[1..]);
      WordsRoundTrip(vs[1..]);
    }
  }

  /** The wire form of a decoded channel. */
  function EncodePcm(samples: seq<real>): (r: seq<byte>)
    ensures |r| == 2 * |samples|
    ensures DecodeWords(r) == Quantise(samples)
  {
    var q := Quantise(samples);
    WordsRoundTrip(q);
    EncodeWords(q)
  }

  /** The anchor values: full scale maps to the ends of the 16-bit range. */
  lemma QuantiseAnchors()
    ensures Quantise([1.0, -1.0, 0.0]) == [32767, -32768, 0]
  {
  }
}

=== FILE: port.dfy ===
/** The listening port of the server (`main`): the `PORT` environment variable parsed as
    an unsigned 16-bit number, or 3000 when it is missing or does not parse. */
module Port {
  import opened Wrappers

  const DefaultPort: nat := 3000

  const MaxU16: nat := 65535

  predicate IsDigit(c: char) {
    '0' <= c <= '9'
  }

  predicate AllDigits(s: string) {
    forall i :: 0 <= i < |s| ==> IsDigit(s[i])
  }

  /** The number a string of decimal digits denotes; leading zeros are allowed. */
  function DigitsValue(s: string): nat
    requires AllDigits(s)
  {
    if s == [] then 0 else 10 * DigitsValue(s[..|s| - 1]) + (s[|s| - 1] as int - '0' as int)
  }

  /** The syntax `u16::from_str` accepts: an optional `+`, then at least one digit. */
  predicate IsUnsignedSyntax(s: string) {
    if |s| > 0 && s[0] == '+' then |s| > 1 && AllDigits(s[1..]) else |s| > 0 && AllDigits(s)
  }

  /** `str::parse::<u16>`: the value of the digits, refused when the syntax is wrong or
      the value exceeds 65535. */
  function ParseU16(s: string): (r: Option<nat>)
    ensures r.Some? ==> r.value <= MaxU16
    ensures r.Some? <==> IsUnsignedSyntax(s) && DigitsValue(Digits(s)) <= MaxU16
    ensures r.Some? ==> r.value == DigitsValue(Digits(s))
  {
    if !IsUnsignedSyntax(s) then None
    else
      var v := DigitsValue(Digits(s));
      if v <= MaxU16 then Some(v) else None
  }

  /** The digits of a string with the unsigned syntax: everything after an optional `+`. */
  function Digits(s: string): (r: string)
    requires IsUnsignedSyntax(s)
    ensures AllDigits(r) && |r| > 0
  {
    if s[0] == '+' then s[1..] else s
  }

  /** A leading `+` is accepted and changes nothing. */
  lemma PlusSignIgnored(t: string)
    requires |t| > 0 && AllDigits(t)
    ensures ParseU16("+" + t) == ParseU16(t)
  {
    assert ("+" + t)[1..] == t;
  }

  /** Leading zeros do not change the value. */
  lemma {:induction false} LeadingZeroIgnored(t: string)
    requires AllDigits(t)
    ensures AllDigits("0" + t) && DigitsValue("0" + t) == DigitsValue(t)
    decreases |t|
  {
    var z := "0" + t;
    assert AllDigits(z) by {
      assert forall i :: 1 <= i < |z| ==> z[i] == t[i - 1];
    }
    if t != [] {
      var init := t[..|t| - 1];
      LeadingZeroIgnored(init);
      assert z[..|z| - 1] == "0" + init;
    }
  }

  /** A value above 65535 is refused, so the port falls back to 3000. */
  lemma OutOfRangePortIsDefault()
    ensures ParseU16("70000") == None
    ensures PortFrom(Some("70000")) == DefaultPort
  {
    assert IsUnsignedSyntax("70000");
    assert Digits("70000") == "70000";
    assert DigitsValue("70000") == 70000 by {
      assert "70000"[..4] == "7000";
      assert "7000"[..3] == "700";
      assert "700"[..2] == "70";
      assert "70"[..1] == "7";
      assert "7"[..0] == "";
    }
  }

  /** The port the server listens on. */
  function PortFrom(env: Option<string>): (r: nat)
    ensures r <= MaxU16
    ensures env.Some? && ParseU16(env.value).Some? ==> r == ParseU16(env.value).value
    ensures env.Some? && ParseU16(env.value).None? ==> r == DefaultPort
  {
    ParseU16(env.GetOr("3000")).GetOr(DefaultPort)
  }

  /** The decimal form of `n` without leading zeros. */
  function Decimal(n: nat): (r: string)
    ensures |r| > 0 && AllDigits(r)
  {
    var d := [('0' as int + n % 10) as char];
    if n < 10 then d else Decimal(n / 10) + d
  }

  lemma {:induction false} DecimalValue(n: nat)
    ensures DigitsValue(Decimal(n)) == n
  {
    var d := [('0' as int + n % 10) as char];
    if n >= 10 {
      DecimalValue(n / 10);
      var s := Decimal(n / 10) + d;
      assert s[..|s| - 1] == Decimal(n / 10);
    }
  }

  /** Every port number written in decimal parses back to itself. */
  lemma ParseDecimal(n: nat)
    requires n <= MaxU16
    ensures ParseU16(Decimal(n)) == Some(n)
  {
    DecimalValue(n);
  }

  /** Without the variable the port is 3000. */
  lemma MissingPortIsDefault()
    ensures PortFrom(None) == DefaultPort
  {
    ParseDecimal(3000);
    assert Decimal(3000) == "3000";
  }
}

=== FILE: server.dfy ===
/** The server's WebSocket handler (`handle_websocket`, `process_audio_with_context`):
    frames are read by the receive loop, a completed frame of audio is transcribed and
    answered with the conversation as context, and the answer or the error is sent back.
    Transcription (with the WAV file written for it) and the chat transport are
    abstract fallible functions. */
module Server {
  import opened Wrappers
  import opened Wire
  import opened History
  import opened Chat
  import opened Frames

  /** The outside services a connection uses. */
  datatype Services = Services(transcribe: seq<byte> -> Result<string, string>, send: Transport)

  const NoAudio := "Нет аудио данных"

  const ErrorPrefix := "Ошибка: "

  /** A successful exchange: the answer and the history after it. */
  datatype Exchange = Exchange(answer: string, history: seq<Pair>)

  /** `process_audio_with_context`: transcribe, ask with context, then remember the
      (text, answer) pair. Either failure leaves the history as it was. */
  function ProcessAudio(svc: Services, audio: seq<byte>, history: seq<Pair>): (r: Result<Exchange, string>)
    ensures svc.transcribe(audio).Failure? ==> r == Failure(svc.transcribe(audio).error)
    ensures svc.transcribe(audio).Success? ==>
      var text := svc.transcribe(audio).value;
      var reply := ChatWithContext(svc.send, text, history);
      && (reply.Failure? ==> r == Failure(reply.error))
      && (reply.Success? ==> r == Success(Exchange(reply.value, Remember(history, text, reply.value))))
  {
    var text :- svc.transcribe(audio);
    var answer :- ChatWithContext(svc.send, text, history);
    Success(Exchange(answer, Remember(history, text, answer)))
  }

  /** What the handler does once the receive loop stopped at the marker: the history and
      the replies afterwards. */
  datatype Finished = Finished(history: seq<Pair>, replies: seq<string>)

  /** Process the frame if it holds bytes; report `Нет аудио данных` if binary messages
      arrived but held none; do nothing if no binary message arrived. */
  function FinishFrame(svc: Services, st: FrameState): (r: Finished)
    ensures !st.recording ==> r == Finished(st.history, st.replies)
    ensures st.recording && st.buffer == [] ==> r == Finished(st.history, st.replies + [NoAudio])
    ensures st.recording && st.buffer != [] ==>
      |r.replies| == |st.replies| + 1 && r.replies[..|st.replies|] == st.replies
    ensures st.recording && st.buffer != [] ==>
      match ProcessAudio(svc, st.buffer, st.history)
      case Success(x) => r.history == x.history && r.replies[|st.replies|] == x.answer
      case Failure(e) => r.history == st.history && r.replies[|st.replies|] == ErrorPrefix + e
    ensures |st.history| <= MaxPairs ==> |r.history| <= MaxPairs
  {
    if st.recording && st.buffer != [] then
      match ProcessAudio(svc, st.buffer, st.history)
      case Success(x) => Finished(x.history, st.replies + [x.answer])
      case Failure(e) => Finished(st.history, st.replies + [ErrorPrefix + e])
    else if st.recording then
      Finished(st.history, st.replies + [NoAudio])
    else
      Finished(st.history, st.replies)
  }

  /** Whether the handler has returned (after a close or a receive error), is inside a
      frame waiting for more messages, or is spinning: after the end of the stream every
      later pass of the outer loop reads nothing and does nothing, forever. */
  datatype Status = Returned | Waiting(buffer: seq<byte>, recording: bool) | Spinning

  datatype SessionResult = SessionResult(history: seq<Pair>, replies: seq<string>, status: Status)

  /** The handler's outer loop over the messages received so far, starting each frame
      with an empty buffer and `recording` false. The end of the stream finishes the
      frame in progress once, like the marker; nothing can be received after it. */
  function Session(svc: Services, history: seq<Pair>, msgs: seq<Message>): (r: SessionResult)
    decreases |msgs|
    ensures |history| <= MaxPairs ==> |r.history| <= MaxPairs
  {
    var got := Receive(FrameState([], false, history, []), msgs);
    match got.end
    case Pending => SessionResult(got.state.history, got.state.replies, Waiting(got.state.buffer, got.state.recording))
    case ClientClosed => SessionResult(got.state.history, got.state.replies, Returned)
    case ReceiveFailed => SessionResult(got.state.history, got.state.replies, Returned)
    case StreamEnded =>
      var done := FinishFrame(svc, got.state);
      SessionResult(done.history, done.replies, Spinning)
    case AtMarker =>
      var done := FinishFrame(svc, got.state);
      var next := Session(svc, done.history, msgs[got.used..]);
      SessionResult(next.history, done.replies + next.replies, next.status)
  }

  /** A close or a receive error makes the handler return, dropping any audio of the
      unfinished frame unprocessed; the history is unchanged and nothing is sent. */
  lemma CloseDropsUnfinishedFrame(svc: Services, history: seq<Pair>, audio: seq<byte>, last: Message)
    requires FindMarker(audio).None?
    requires last == Close || last.Error?
    ensures Session(svc, history, [Binary(audio), last]) == SessionResult(history, [], Returned)
  {
    var st := FrameState([], false, history, []);
    var st1 := Absorb(st, Binary(audio));
    assert [Binary(audio), last][1..] == [last];
    assert Receive(st1, [last]).end != Pending;
    assert Receive(st, [Binary(audio), last]).state == st1;
  }

  /** The end of the stream finishes the frame in progress exactly as the marker would:
      unmarked audio is still processed and answered, and then the handler spins. */
  lemma StreamEndFinishesFrame(svc: Services, history: seq<Pair>, audio: seq<byte>)
    requires FindMarker(audio).None?
    ensures Session(svc, history, [Binary(audio), Ended])
      == var done := FinishFrame(svc, FrameState(audio, true, history, []));
         SessionResult(done.history, done.replies, Spinning)
  {
    var st := FrameState([], false, history, []);
    var st1 := Absorb(st, Binary(audio));
    assert [Binary(audio), Ended][1..] == [Ended];
    assert Receive(st1, [Ended]) == Received(st1, StreamEnded, 1);
    assert Receive(st, [Binary(audio), Ended]).state == st1;
    assert st1 == FrameState(audio, true, history, []);
  }

  /** With no binary message in the frame, the end of the stream sends nothing and
      changes nothing: the handler just spins. */
  lemma StreamEndWithoutAudioSpins(svc: Services, history: seq<Pair>)
    ensures Session(svc, history, [Ended]) == SessionResult(history, [], Spinning)
  {
    var st := FrameState([], false, history, []);
    assert Receive(st, [Ended]) == Received(st, StreamEnded, 1);
    assert FinishFrame(svc, st) == Finished(history, []);
  }

  /** A voice request as the client sends it (the PCM buffer, then the marker in its own
      message) makes the server process exactly the PCM bytes, provided the buffer does
      not itself contain the marker's bytes. */
  lemma VoiceRequestDeliversAudio(history: seq<Pair>, pcm: seq<byte>)
    requires FindMarker(pcm).None?
    ensures var st := FrameState([], false, history, []);
      var r := Receive(st, [Binary(pcm), Binary(EndStream)]);
      r.end == AtMarker && r.used == 2 && r.state.buffer == pcm && r.state.recording
  {
    var st := FrameState([], false, history, []);
    var st1 := Absorb(st, Binary(pcm));
    var msgs := [Binary(pcm), Binary(EndStream)];
    assert FindMarkerFrom(EndStream, 0) == Some(0);
    assert msgs[1..] == [Binary(EndStream)];
    assert EndStream[..0] == [];
    assert Receive(st1, msgs[1..]) == Received(st1.(buffer := st1.buffer + [], recording := true), AtMarker, 1);
    assert st1.buffer + [] == pcm;
  }

  /** A lone marker (a voice request whose PCM buffer came out empty) is answered with
      `Нет аудио данных`. */
  lemma LoneMarkerReportsNoAudio(svc: Services, history: seq<Pair>)
    ensures Session(svc, history, [Binary(EndStream)]) == SessionResult(history, [NoAudio], Waiting([], false))
  {
    var st := FrameState([], false, history, []);
    assert FindMarkerFrom(EndStream, 0) == Some(0);
    assert EndStream[..0] == [];
    assert Receive(st, [Binary(EndStream)]).state == st.(recording := true);
    assert [Binary(EndStream)][1..] == [];
  }

  /** A marker at the start of a frame, with nothing before it, ends that frame at
      once: the server reports `Нет аудио данных` and carries on with the remaining
      messages as a fresh frame. */
  lemma LeadingMarkerReportsNoAudio(svc: Services, history: seq<Pair>, rest: seq<Message>)
    ensures var next := Session(svc, history, rest);
      Session(svc, history, [Binary(EndStream)] + rest)
        == SessionResult(next.history, [NoAudio] + next.replies, next.status)
  {
    var st := FrameState([], false, history, []);
    var msgs := [Binary(EndStream)] + rest;
    assert msgs[0] == Binary(EndStream);
    assert FindMarkerFrom(EndStream, 0) == Some(0);
    assert EndStream[..0] == [];
    assert Receive(st, msgs) == Received(st.(recording := true), AtMarker, 1);
    assert msgs[1..] == rest;
  }

  /** A text request (`text:` and the user's words) is neither answered nor processed:
      the handler stays waiting with the history unchanged. */
  lemma TextRequestIsIgnored(svc: Services, history: seq<Pair>, words: string)
    ensures Session(svc, history, [Text("text:" + words)]) == SessionResult(history, [], Waiting([], false))
  {
    var st := FrameState([], false, history, []);
    var m := Text("text:" + words);
    assert m != Text("ping") by {
      assert ("text:" + words)[0] == 't';
    }
    assert m != Text("clear_context") by {
      assert ("text:" + words)[1] == 'e';
    }
    assert [m][1..] == [];
    assert Receive(st, [m]) == Received(st, Pending, 1);
  }

  /** `ping` is answered with one `pong` and changes nothing else. */
  lemma PingIsAnswered(svc: Services, history: seq<Pair>)
    ensures Session(svc, history, [Text("ping")]) == SessionResult(history, [Pong], Waiting([], false))
  {
    assert [Text("ping")][1..] == [];
  }

  /** `clear_context` empties the history and is confirmed once. */
  lemma ClearContextEmptiesHistory(svc: Services, history: seq<Pair>)
    ensures Session(svc, history, [Text("clear_context")]) == SessionResult([], [ContextCleared], Waiting([], false))
  {
    assert [Text("clear_context")][1..] == [];
  }
}

=== FILE: stats.dfy ===
/** The latency ledger of the client: the list of observed response times, the count of
    responses, the displayed mean, and their persisted form under one key of the
    browser's key-value store (`loadStats`/`saveStats`). JSON serialisation is
    abstracted: the store holds the record itself. */
module Stats {
  import opened Wrappers

  function Sum(ts: seq<int>): int {
    if ts == [] then 0 else Sum(ts[..|ts| - 1]) + ts[|ts| - 1]
  }

  /** `Math.round`: the nearest integer, halves rounded up. */
  function Round(x: real): (r: int)
    ensures r as real - 0.5 <= x < r as real + 0.5
  {
    (x + 0.5).Floor
  }

  /** The displayed average: `Math.round(sum / length)`. The source only computes it
      for a non-empty list. */
  function Mean(ts: seq<int>): (r: int)
    requires |ts| > 0
    ensures (r as real - 0.5) * |ts| as real <= Sum(ts) as real < (r as real + 0.5) * |ts| as real
  {
    var n := |ts| as real;
    var avg := Sum(ts) as real / n;
    var r := Round(avg);
    DivBounds(r as real - 0.5, Sum(ts) as real, r as real + 0.5, n);
    r
  }

  /** A quotient by a positive number between two bounds puts the dividend between the
      bounds times that number. */
  lemma DivBounds(lo: real, s: real, hi: real, n: real)
    requires n > 0.0 && lo <= s / n < hi
    ensures lo * n <= s < hi * n
  {
    ScaleBounds(lo, s / n, hi, n);
    assert (s / n) * n == s;
  }

  /** Multiplying by a positive number keeps the order of three values. */
  lemma ScaleBounds(lo: real, x: real, hi: real, n: real)
    requires lo <= x < hi && n > 0.0
    ensures lo * n <= x * n < hi * n
  {
  }

  predicate IsLowerBound(ts: seq<int>, lo: int) {
    forall i :: 0 <= i < |ts| ==> lo <= ts[i]
  }

  predicate IsUpperBound(ts: seq<int>, hi: int) {
    forall i :: 0 <= i < |ts| ==> ts[i] <= hi
  }

  lemma {:induction false} SumBounds(ts: seq<int>, lo: int, hi: int)
    requires IsLowerBound(ts, lo) && IsUpperBound(ts, hi)
    ensures |ts| * lo <= Sum(ts) <= |ts| * hi
  {
    if ts != [] {
      var init := ts[..|ts| - 1];
      assert IsLowerBound(init, lo) && IsUpperBound(init, hi) by {
        forall i | 0 <= i < |init| ensures lo <= init[i] <= hi {
          assert init[i] == ts[i];
        }
      }
      SumBounds(init, lo, hi);
      assert |ts| * lo == |init| * lo + lo;
      assert |ts| * hi == |init| * hi + hi;
    }
  }

  /** The mean lies between any lower and any upper bound of the latencies. */
  lemma MeanBounds(ts: seq<int>, lo: int, hi: int)
    requires |ts| > 0
    requires IsLowerBound(ts, lo) && IsUpperBound(ts, hi)
    ensures lo <= Mean(ts) <= hi
  {
    SumBounds(ts, lo, hi);
    ProductAsReal(|ts|, lo);
    ProductAsReal(|ts|, hi);
    RoundedQuotientBounds(lo, hi, Mean(ts), Sum(ts) as real, |ts| as real);
  }

  lemma ProductAsReal(k: int, x: int)
    ensures (k * x) as real == k as real * x as real
  {
  }

  /** A value between `lo * n` and `hi * n` whose quotient by `n` rounds to `m` has `m`
      between `lo` and `hi`. */
  lemma RoundedQuotientBounds(lo: int, hi: int, m: int, s: real, n: real)
    requires n > 0.0
    requires lo as real * n <= s <= hi as real * n
    requires (m as real - 0.5) * n <= s < (m as real + 0.5) * n
    ensures lo <= m <= hi
  {
    ScaledBelow(lo as real, s, m as real + 0.5, n);
    ScaledAtMost(m as real - 0.5, s, hi as real, n);
  }

  /** Dividing by a positive number keeps a strict order. */
  lemma ScaledBelow(a: real, s: real, b: real, n: real)
    requires n > 0.0 && a * n <= s < b * n
    ensures a < b
  {
  }

  /** Dividing by a positive number keeps an order. */
  lemma ScaledAtMost(a: real, s: real, b: real, n: real)
    requires n > 0.0 && a * n <= s <= b * n
    ensures a <= b
  {
  }

  /** Two responses of 100 ms and 300 ms show a mean of 200 ms. */
  lemma MeanOfTwo()
    ensures Mean([100, 300]) == 200
  {
    assert Sum([100, 300]) == 400 by {
      assert [100, 300][..1] == [100];
      assert [100][..0] == [];
    }
  }

  /** The key `loadStats` and `saveStats` use. */
  const StatsKey := "voiceAssistantStats"

  /** A stored record: either field may be missing from what was parsed. */
  datatype StoredStats = StoredStats(totalRequests: Option<int>, responseTimes: Option<seq<int>>)

  type Store = map<string, StoredStats>

  /** The ledger as the client holds it. */
  datatype Ledger = Ledger(totalRequests: int, responseTimes: seq<int>)

  /** `saveStats`: writes both fields under the stats key and nothing else. */
  function Save(store: Store, ledger: Ledger): (r: Store)
    ensures StatsKey in r
    ensures forall k :: k in store && k != StatsKey ==> k in r && r[k] == store[k]
    ensures forall k :: k in r ==> k in store || k == StatsKey
  {
    store[StatsKey := StoredStats(Some(ledger.totalRequests), Some(ledger.responseTimes))]
  }

  /** `loadStats`: nothing when the key is absent; otherwise each missing field falls
      back to its default (`|| 0`, `|| []`). */
  function Load(store: Store): (r: Option<Ledger>)
    ensures r.None? <==> StatsKey !in store
    ensures r.Some? ==> store[StatsKey].responseTimes.None? ==> r.value.responseTimes == []
    ensures r.Some? ==> store[StatsKey].totalRequests.None? ==> r.value.totalRequests == 0
    ensures r.Some? ==> store[StatsKey].totalRequests.Some? ==>
      r.value.totalRequests == store[StatsKey].totalRequests.value
    ensures r.Some? ==> store[StatsKey].responseTimes.Some? ==>
      r.value.responseTimes == store[StatsKey].responseTimes.value
  {
    if StatsKey in store then
      var saved := store[StatsKey];
      Some(Ledger(saved.totalRequests.GetOr(0), saved.responseTimes.GetOr([])))
    else
      None
  }

  /** What was saved is what is loaded. */
  lemma LoadAfterSave(store: Store, ledger: Ledger)
    ensures Load(Save(store, ledger)) == Some(ledger)
  {
  }
}

=== FILE: wire.dfy ===
/** What client and server share on the WebSocket: bytes of binary messages, the ASCII
    encoding the browser's `TextEncoder` gives short tokens, and the `END_STREAM`
    marker that ends the audio of a voice request. */
module Wire {

  newtype byte = x: int | 0 <= x < 256

  predicate IsAscii(s: string) {
    forall i :: 0 <= i < |s| ==> s[i] as int < 128
  }

  /** UTF-8 of an ASCII string: one byte per character, equal to its code point. */
  function AsciiBytes(s: string): (r: seq<byte>)
    requires IsAscii(s)
    ensures |r| == |s|
    ensures forall i :: 0 <= i < |s| ==> r[i] as int == s[i] as int
  {
    seq(|s|, i requires 0 <= i < |s| && IsAscii(s) => s[i] as int as byte)
  }

  /** The marker's bytes, `E N D _ S T R E A M` in ASCII. */
  const EndStream: seq<byte> := [69, 78, 68, 95, 83, 84, 82, 69, 65, 77]

  /** The marker is what `TextEncoder` makes of the string `END_STREAM`. */
  lemma EndStreamIsText()
    ensures IsAscii("END_STREAM") && EndStream == AsciiBytes("END_STREAM")
  {
    var t := "END_STREAM";
    assert IsAscii(t);
    assert forall i :: 0 <= i < 10 ==> AsciiBytes(t)[i] == EndStream[i];
  }
}

=== FILE: wrappers.dfy ===
/** Failure-compatible wrappers: `Option` for values that may be absent (a missing
    environment variable, a missing stored record, a failed decode) and `Result` for
    the fallible steps of the server (transcription, the chat call). */
module Wrappers {

  datatype Option<+T> = None | Some(value: T) {

    /** The wrapped value, or `default` when there is none. */
    function GetOr(default: T): T {
      match this
      case Some(v) => v
      case None => default
    }
  }

  datatype Result<+R, +E> = Success(value: R) | Failure(error: E) {

    predicate IsFailure() {
      Failure?
    }

    function PropagateFailure<U>(): Result<U, E>
      requires Failure?
    {
      Failure(error)
    }

    function Extract(): R
      requires Success?
    {
      value
    }
  }
}
